=== FILE: README.md ===
# BottleBundle bundle pipeline, modelled in Dafny

BottleBundle builds two-bottle gift bundles for an online liquor shop. As main.py
runs it, the program scrapes bottles from a category page, and pairs them by brand
and price with bundler.py's `generate_bundles`. It prices each pair at the two
bottles' sum less $5.00, rounded to .99, and drops names already in the
processed-bundle log. The result is written as rows of a Shopify import CSV.

A later revision of the generator, bundlertest.py, adds a size filter. It also has
a language model score each pair and keeps only the best-ranked pairs. main.py does
not call that revision.

This project models the pure core of that pipeline:

- `Catalog`: bottles and bundles as immutable records with prices in integer
  cents. Also the bundle name `"A & B"`, the bundle price and the score-cache key
  `"A||B"`.
- `Money`: `round_to_99` on cents, and `f"{x:.2f}"` price formatting.
- `Volume`: `extract_volume` and the standard-size filter of the later generator.
- `Pairs` and `Bundler`: the same-brand and cross-brand enumeration of
  `generate_bundles` (bundler.py). It is stated over input positions and proved
  sound, complete, duplicate-free and correctly ordered.
- `Scoring`: parsing the scorer's reply, and memoised scoring of every candidate
  through a cache passed in and returned.
- `Ranking`: the stable descending sort by (score, price), and the top-N cut.
- `RankedBundler`: `generate_bundles` of bundlertest.py, the later revision, as
  one method.
- `Scraper`: `extract_price` and `clean_text`.
- `Exporter`: `create_handle` and the CSV row built for each bundle.
- `Categories`: `get_product_category`.
- `ProcessedLog`: the processed-bundle log over a file store. The store is a map
  from path to the stored list of names.
- Helper modules: `Chars` (ASCII character classes, lower-casing, decimal
  digits), `Seqs` (filter, subsequence, chains) and `Optional`.

Modelling choices:

- Money is integer cents. So the $10.00 cross-brand window and the .99 rounding
  are exact.
- Scores are `real`. Volumes are millilitres, read from exact decimal text.
- The language-model call is a parameter `(Bottle, Bottle) -> Option<string>`.
  `None` stands for a call that raised.
- The score cache is a `map<string, real>` passed in and returned.
- A regular-expression search is modelled as the greedy reading at the first
  position where that reading succeeds. For the three patterns used
  (`(\d+(?:\.\d+)?)\s*(ml|l)`, `(\d[\d,]*\.\d{2})`, `\d+`), backtracking can never
  produce a match where the greedy reading fails. Each module's header comment
  explains why.

The later generator (bundlertest.py) runs the same two enumeration passes as the
earlier one (bundler.py), on the size-filtered bottles. So `RankedBundler`
reuses `Bundler.GenerateBundles` and adds the size filter, scoring, sorting and
the cut.

Four behaviours of the code are worth stating plainly:

- The reply parser takes the first run of digits, of any length. It does not
  clamp the result to 0..100 and it ignores any "/100", so "150" scores 150.
- A corrupt processed log is not reset. `json.load` raises on it, and the model
  has no such case.
- A pair whose prices sum to less than $4.99 gets a negative price. At exactly
  $4.99 the amount is −0.01, which rounds up to +0.99. `round_to_99` writes
  `f"{floor}.99"`, or `f"{floor + 1}.99"` when the cents are already .99. For a
  negative whole part the minus sign covers the ".99" too. So −3.00 becomes −3.99
  and −2.01 becomes −2.99: each ends in .99, as the docstrings promise, but lies
  below the input.
- The cross-brand test is `<= 10`, so a difference of exactly $10.00 pairs,
  although bundler.py:12's docstring says "< 10".

## Model

| member | source | states |
|---|---|---|
| Chars.Decimal | bundler.py:75 | `str(n)`: decimal digits that read back as n, starting with '0' only for 0 |
| Money.DotNinetyNine | bundler.py:75-78 | `float(f"{k}.99")` has k's magnitude as its whole units and 99 cents, and the sign of k |
| Money.RoundTo99 | bundlertest.py:121-126 | every result ends in .99 and lies less than 2.00 below and at most 1.00 above the input; a non-negative input moves strictly up; the result is negative exactly when the input is below −0.01 |
| Money.RoundTo99Unique | bundler.py:65-78 | for a non-negative amount, exactly one amount ends in .99 within (cents, cents + 1.00], and round_to_99 returns it |
| Money.RoundTo99AboveIff | bundler.py:70-78 | the result lies above the input exactly when the input is non-negative or −0.01 |
| Money.RoundTo99PrintsNinetyNine | bundler.py:67 | every result, written with `:.2f`, ends in ".99" |
| Money.RoundTo99Examples | bundler.py:67-69 | 194.98 → 194.99, 131.40 → 131.99, 99.10 → 99.99, 50.00 → 50.99, 12.99 → 13.99, 39.99 + 49.99 − 5 → 84.99, 1.00 + 1.00 − 5 → −3.99, 4.99 − 5 → 0.99, and 2.99 − 5 → −2.99 |
| Money.FormatCents | csv_exporter.py:42 | `:.2f` output has a point followed by exactly two digits, starts with a digit, or with '-' for a negative amount |
| Money.FormatUnsigned | csv_exporter.py:42 | the digits before the point and the two after it read back as the amount in cents; it starts with '0' only below 1.00, so there is no leading zero |
| Money.FormatCentsExamples | csv_exporter.py:42 | 84.99 is written "84.99", 0.05 is "0.05" and −4.99 is "-4.99" |
| Catalog.BundleName | bundler.py:27 | the name is the first bottle's name, " & ", then the second bottle's name |
| Catalog.MakeBundle | bundlertest.py:97-102 | a bundle holds the two bottles in the given order and is named `"A & B"`; its price ends in .99, lies less than 2.00 below and at most 1.00 above p1 + p2 − 5.00, and strictly above it when p1 + p2 ≥ 5.00 |
| Catalog.PairKey | bundlertest.py:71 | the cache key is as long as the two names plus the two-character separator |
| Catalog.PairKeyLayout | bundlertest.py:71 | the cache key is the first name, then "||", then the second name |
| Volume.ExtractVolume | bundlertest.py:103-120 | text with no digit gives 750; any other result comes from a quantity the search found |
| Volume.ExtractVolumeIgnoresCase | bundlertest.py:111 | lower-casing the text first does not change the volume |
| Volume.VolumeLabelRoundTrip | bundlertest.py:111-116 | "n ml" reads as n and "n L" as n × 1000, when nothing before it contains a digit |
| Volume.FractionalLitres | bundlertest.py:115-116 | "w.f L" reads as w × 1000 plus the first three digits of f, truncated like `int(vol * 1000)` |
| Volume.ExtractVolumeExamples | bundlertest.py:104-109 | "750 ml" → 750, "1.5 L" → 1500, "1.75 L" → 1750, "Silver Tequila" → 750 |
| Volume.AnyLAfterNumberIsLitres | bundlertest.py:111 | any 'l' after a number is a litre unit: "2 limes" reads as 2000 |
| Volume.ResolvedVolume | bundlertest.py:39 | the name's volume is used unless it is 0, and then the brand's volume is the result |
| Volume.ResolvedVolumeOfLabel | bundlertest.py:39 | a name labelled "n ml" resolves to n, and "0 ml" falls back to the brand's volume |
| Volume.SizeFilter | bundlertest.py:37-41 | keeps exactly the bottles of 750, 1500 or 1750 ml, each as often as it occurs, as a subsequence of the input |
| Volume.UnlabelledBottleIsStandard | bundlertest.py:119-120 | a bottle whose name has no digit counts as 750 ml and passes the filter |
| Pairs.Members | bundler.py:18-20 | a brand's group holds exactly the positions of that lower-cased brand, in increasing order |
| Pairs.Combinations2Members | bundler.py:25 | the 2-combinations of increasing positions are exactly the ordered pairs of them |
| Pairs.Combinations2Ordered | bundler.py:25 | 2-combinations come in lexicographic order |
| Pairs.BrandOrder | bundler.py:18-23 | the groups' keys list every brand of the input once each |
| Pairs.BrandOrderFollowsFirstBottles | bundler.py:18-23 | groups are visited in the order their brand first appears |
| Pairs.SameBrandPairsMembers | bundler.py:23-25 | the same-brand pass yields exactly the pairs i < j whose lower-cased brands are equal |
| Pairs.SameBrandPairsOrdered | bundler.py:23-25 | same-brand pairs come group by group in first-appearance order, and in combination order within a group |
| Pairs.CrossBrandPairs | bundler.py:43-49 | the cross-brand pass yields exactly the pairs i < j of different brands at most $10.00 apart, in combination order |
| Pairs.PassesAreDisjoint | bundler.py:46-47 | no pair is produced by both passes |
| Bundler.GenerateBundles | bundler.py:6-63 | each bundle is built from two bottles at positions i < j, is named `"A & B"`, has a name outside `existing`, and is priced like `MakeBundle`: ends in .99, at most 1.00 above p1 + p2 − 5.00, strictly above it when p1 + p2 ≥ 5.00, and less than 2.00 below it otherwise |
| Bundler.EmittedPairsMembers | bundler.py:23-61 | a pair is emitted exactly when it qualifies (same brand, or within $10.00) and its name is free |
| Bundler.GenerateBundlesComplete | bundler.py:23-61 | every qualifying pair whose name is free appears as a bundle |
| Bundler.EmittedPairsNoDuplicates | bundler.py:43-47 | no pair of positions is emitted twice |
| Bundler.EmittedPairsOrder | bundler.py:23-61 | all same-brand bundles precede all cross-brand bundles, each part in its pass's order |
| Bundler.ExistingOnlyFilters | bundler.py:27-52 | the result against `existing` is the result against no names, less the bundles whose names are taken, in the same order |
| Bundler.RerunYieldsNothing | bundler.py:28-29 | running again with the first run's names added to `existing` yields nothing |
| Bundler.TwoBottlesOneBundle | bundler.py:23-61 | two bottles that qualify, under a free name, give exactly their one bundle |
| Bundler.TwoBottlesNoBundle | bundler.py:43-49 | two bottles that do not qualify give no bundle |
| Bundler.SameBrandTwoBottles | bundler.py:23-39 | two bottles of one brand give exactly their bundle |
| Bundler.EndToEndExample | bundler.py:23-39 | $39.99 and $49.99 of one brand give one bundle "… & …" at $84.99 |
| Bundler.EndToEndBundle | bundler.py:27-33 | the example's bundle name and its price of 84.99 |
| Bundler.CrossBrandThreshold | bundler.py:46-49 | different brands exactly $10.00 apart pair, and $10.01 apart they do not |
| Scoring.FirstNumber | ai_matcher.py:28 | `re.search(r'\d+')` finds nothing exactly when no digit follows; a match is a non-empty run of digits |
| Scoring.ParseReply | ai_matcher.py:26-30 | the score is never negative, and a reply without a digit scores 50.0 |
| Scoring.FirstNumberOf | ai_matcher.py:28 | the match is the first maximal digit run; the digits after it are ignored |
| Scoring.ParseReplyReadsFirstNumber | ai_matcher.py:28 | a reply whose first number is d scores d |
| Scoring.ParseReplyOfDecimal | ai_matcher.py:28 | any number written in decimal scores itself, with no upper clamp |
| Scoring.ParseReplyExamples | ai_matcher.py:27-30 | "150" → 150, "85/100" → 85, "N/A" → 50 |
| Scoring.ScoreOf | bundlertest.py:72-78 | one scorer call's score: 50.0 when the call fails, otherwise the parsed reply, never negative |
| Scoring.ScoreAll | bundlertest.py:70-79 | every key ends up in the cache, old entries are unchanged, each score equals its key's cache entry, a missing key gets the scorer's result (50.0 on failure), and the scorer is asked once per distinct missing key |
| Ranking.Insert | bundlertest.py:86 | inserting adds exactly one element, as a multiset |
| Ranking.InsertSorted | bundlertest.py:86 | inserting into a descending list keeps it descending |
| Ranking.SortRanked | bundlertest.py:86 | the sort is a permutation of its input |
| Ranking.SortRankedSorted | bundlertest.py:86 | the sort's output is non-increasing in (score, price) |
| Ranking.SortRankedStable | bundlertest.py:86 | bundles with equal (score, price) keep their input order |
| Ranking.SortRankedExample | bundlertest.py:86 | scores 80, 80, 60 at 10.00, 20.00, 30.00 rank as 80/20.00, 80/10.00, 60/30.00 |
| Ranking.TakePrefix | bundlertest.py:87 | `s[:n]` keeps the first n elements, all of them when n is larger, and drops the last −n when n is negative |
| Ranking.TopDominates | bundlertest.py:86-87 | every kept bundle ranks at least as high as every dropped one |
| RankedBundler.RankCandidates | bundlertest.py:70-87 | the cache and scorer guarantees of scoring (a newly cached key holds the scorer's parsed reply, or 50.0 when the call failed), and the top-N of a sorted permutation of the scored candidates |
| RankedBundler.GenerateRankedBundles | bundlertest.py:22-92 | returns [] and leaves the cache alone when no bottle passes the size filter or no candidate survives; otherwise returns the top max_bundles of the size-filtered candidates, and a newly cached key holds the scorer's parsed reply, or 50.0 when the call failed |
| Scraper.ExtractPrice | scraper.py:14-22 | None exactly when no position of the text starts a price match |
| Scraper.ExtractPriceAt | scraper.py:19-21 | the first match is read, commas dropped, as cents |
| Scraper.NoDigitNoPrice | scraper.py:19-22 | text with no digit yields None |
| Scraper.ExtractPriceOfFormatted | scraper.py:19-21 | `extract_price` reads a `:.2f` price back as its amount, without the sign |
| Scraper.StockPrice | scraper.py:16 | "$49.99 — In stock" → 49.99 |
| Scraper.GroupedPrice | scraper.py:21 | "1,299.99" → 1299.99 |
| Scraper.LongPrice | scraper.py:19 | "12.345" → 12.34: only two decimals are read |
| Scraper.TrimEnd | scraper.py:25 | trimming keeps a prefix that does not end in whitespace, and cuts off only whitespace |
| Scraper.StripSlice | scraper.py:25 | `strip()` cuts out a slice that neither starts nor ends with whitespace, and only whitespace lies outside it |
| Scraper.CleanText | scraper.py:23-25 | the output holds only `[\w\s-]` characters and neither starts nor ends with whitespace |
| Scraper.CleanTextIsSlice | scraper.py:25 | the output is the kept characters with the surrounding whitespace cut off |
| Scraper.CleanTextKeepsContent | scraper.py:25 | every kept non-space character survives as often as it occurs |
| Scraper.CleanTextIsSubsequence | scraper.py:25 | the output keeps the surviving characters in their original order |
| Scraper.CleanTextIdempotent | scraper.py:25 | cleaning twice equals cleaning once |
| Exporter.CreateHandle | csv_exporter.py:7-10 | the handle is lower-case, holds no ' ' and only `[\w\s-]` characters, and has one character per kept input character; `CreateHandleAppend` and `CreateHandleChar` together determine it exactly |
| Exporter.FixedIffHandle | csv_exporter.py:7-10 | a string is its own handle exactly when it is lower-case, space-free and all `[\w\s-]` |
| Exporter.HandleIsFixed | csv_exporter.py:9-10 | a handle is its own handle |
| Exporter.CreateHandleAppend | csv_exporter.py:7-10 | the handle of a concatenation is the concatenation of the handles: each character is treated on its own |
| Exporter.CreateHandleChar | csv_exporter.py:9-10 | a character outside `[\w\s-]` vanishes, a space becomes '-', and every other character is lower-cased |
| Exporter.CreateHandleIdempotent | csv_exporter.py:7-10 | making a handle twice equals making it once |
| Exporter.CreateHandleExample | csv_exporter.py:9-10 | "A & B" → "a--b" |
| Exporter.RowOf | csv_exporter.py:31-46 | the row's Title is the name and its Handle a handle; a present description, sku or image is copied and a missing one gives ""; the fixed columns hold their constants |
| Exporter.RowHandle | csv_exporter.py:32-33 | the Handle is `create_handle` of the Title |
| Exporter.RowPriceReadsBack | csv_exporter.py:42 | Variant Price has exactly two decimals, starts with '-' exactly when the price is negative, and reads back as the price's magnitude |
| Exporter.RowPriceExample | csv_exporter.py:42 | 84.99 is listed as "84.99" |
| Categories.ProductCategory | category_utils.py:2-19 | a listed key gets its path, every result extends the fallback, and only an unlisted key gets the fallback itself |
| Categories.ListedCategories | category_utils.py:7-18 | the table has exactly the nine listed keys |
| Categories.TequilaPath | category_utils.py:8 | 'Tequila' → "… > Liquor & Spirits > Tequila" |
| Categories.LiqueurPath | category_utils.py:15 | 'Liqueur' → "… > Liquor & Spirits > Liqueurs" |
| Categories.FallbackExamples | category_utils.py:19 | 'tequila' and 'Absinthe' both get the fallback; the lookup is case-sensitive |
| ProcessedLog.LoadProcessed | duplicate_checker.py:6-14 | an absent file loads as the empty set; otherwise the set of the stored list's elements |
| ProcessedLog.ListOf | duplicate_checker.py:23 | `list(set)` lists every element once and nothing else |
| ProcessedLog.SaveProcessed | duplicate_checker.py:16-23 | afterwards the log loads as the old set plus the item, which is no change when the item was already there; the list has no duplicates; no other file changes |

## Left out

- Browser scraping, HTML parsing, image composition, background removal and
  copy generation (scraper.py:27-93, image_composer.py, background_cleaner.py,
  description_builder.py). They are I/O with browsers, image libraries and the
  network.
- The language-model request in `score_pair` (ai_matcher.py:10-23). It is an
  oracle parameter that returns the reply text, or `None` when the call raises.
- The JSON reads and writes of the score cache (bundlertest.py:12-17, 82-83),
  `time.sleep` and `print`. The cache is passed in and returned instead.
- Orchestration in main.py: file checks, directory creation and CSV writing. The
  row contents are modelled by `Exporter.RowOf`.
- Binary floating point. Prices are exact cents and volumes exact decimals, so
  float artefacts are not reproduced. For example, in floats
  `100.99 - math.floor(100.99)` is just below 0.99, so `round_to_99(100.99)`
  returns 100.99, while the model gives 101.99. Likewise `int(vol * 1000)` may
  truncate a product that falls just below a whole number.
- RoundTo99Unique: the uniqueness in the window (cents, cents + 1.00] is stated for
  non-negative amounts only. A negative amount other than −0.01 rounds below
  itself (RoundTo99AboveIff), so no window above it holds the result.
- Money.RoundTo99: works on whole cents, so sub-cent inputs such as 12.992 cannot
  be stated. Whole-cent inputs ending in .99 (for example 12.99 → 13.99) are
  covered.
- Unicode. `\w`, `\s`, `\d` and `str.lower()` are modelled on ASCII only.
- Scoring.ParseReply: digit runs are read exactly. Python's `float()` of a very
  long digit run would round to the nearest double.
- Exporter.RowOf: the Variant Inventory Qty column is the integer 10, as written.
  CSV quoting and escaping are not modelled.
- ProcessedLog.LoadProcessed: a log holding valid JSON other than a list of
  strings is not modelled. Python's `set(data)` would give a dict's keys, a
  string's characters or a set of non-string elements, and would raise
  TypeError on a number. Only invalid JSON makes `json.load` raise.

=== FILE: bundler.dfy ===
/** Candidate bundles (bundler.py `generate_bundles`, and steps 2-A and 2-B of the
    later revision in bundlertest.py).

    Every pair of the same-brand pass, then every pair of the cross-brand pass,
    becomes a bundle unless a bundle of that name already exists. `existing` is only
    read: a bundle is dropped when its name is in it, and nothing is added to it
    during the run. */
module Bundler {
  import opened Seqs
  import opened Money
  import opened Catalog
  import opened Pairs

  /** Both positions of `p` are positions of `bs`. */
  predicate InRange(bs: seq<Bottle>, p: Pair)
  {
    p.lo < |bs| && p.hi < |bs|
  }

  /** The bundle `_add_combo` builds for the bottles at the two positions. */
  function BundleAt(bs: seq<Bottle>, p: Pair): Bundle
    requires InRange(bs, p)
  {
    MakeBundle(bs[p.lo], bs[p.hi])
  }

  /** `_add_combo` goes ahead only when the pair's name is not taken. */
  predicate Unclaimed(bs: seq<Bottle>, existing: set<string>, p: Pair)
  {
    InRange(bs, p) && BundleName(bs[p.lo], bs[p.hi]) !in existing
  }

  function UnclaimedIn(bs: seq<Bottle>, existing: set<string>): Pair -> bool
  {
    (p: Pair) => Unclaimed(bs, existing, p)
  }

  /** The pairs that become bundles, in the order they are appended. */
  function EmittedPairs(bs: seq<Bottle>, existing: set<string>): (r: seq<Pair>)
    ensures forall i :: 0 <= i < |r| ==> InRange(bs, r[i])
  {
    Filter(SameBrandPairs(bs), UnclaimedIn(bs, existing)) +
    Filter(CrossBrandPairs(bs), UnclaimedIn(bs, existing))
  }

  /** The bundles for a list of pairs, one per pair, in order. */
  function BundlesOf(bs: seq<Bottle>, ps: seq<Pair>): (r: seq<Bundle>)
    requires forall i :: 0 <= i < |ps| ==> InRange(bs, ps[i])
    ensures |r| == |ps|
    ensures forall i :: 0 <= i < |r| ==> r[i] == BundleAt(bs, ps[i])
    decreases |ps|
  {
    if |ps| == 0 then [] else [BundleAt(bs, ps[0])] + BundlesOf(bs, ps[1..])
  }

  /** `generate_bundles` of bundler.py: the same-brand bundles, then the cross-brand
      ones, none of them named in `existing`. */
  function GenerateBundles(bs: seq<Bottle>, existing: set<string>): (r: seq<Bundle>)
    ensures |r| == |EmittedPairs(bs, existing)|
    ensures forall i :: 0 <= i < |r| ==>
              var p := EmittedPairs(bs, existing)[i];
              p.lo < p.hi < |bs| && r[i].first == bs[p.lo] && r[i].second == bs[p.hi]
    ensures forall i :: 0 <= i < |r| ==>
              r[i].name !in existing && r[i].name == BundleName(r[i].first, r[i].second)
    ensures forall i :: 0 <= i < |r| ==>
              var sum := r[i].first.price + r[i].second.price;
              Abs(r[i].price) % 100 == 99 &&
              sum - Discount - 200 < r[i].price <= sum - Discount + 100 &&
              (sum >= Discount ==> sum - Discount < r[i].price)
  {
    var e := EmittedPairs(bs, existing);
    forall i | 0 <= i < |e|
      ensures e[i].lo < e[i].hi && BundleName(bs[e[i].lo], bs[e[i].hi]) !in existing
    {
      EmittedPairsMembers(bs, existing, e[i]);
    }
    BundlesOf(bs, e)
  }

  /** The pass a pair qualifies in: same brand, or different brands within $10. */
  predicate Qualifies(bs: seq<Bottle>, p: Pair)
  {
    p.lo < p.hi < |bs| && (SameBrand(bs[p.lo], bs[p.hi]) || CloseInPrice(bs[p.lo], bs[p.hi]))
  }

  /** Soundness and completeness: a pair of positions is emitted exactly when it
      qualifies and its name is not taken. */
  lemma EmittedPairsMembers(bs: seq<Bottle>, existing: set<string>, p: Pair)
    ensures p in EmittedPairs(bs, existing) <==>
              Qualifies(bs, p) && BundleName(bs[p.lo], bs[p.hi]) !in existing
  {
    var keep := UnclaimedIn(bs, existing);
    var same := SameBrandPairs(bs);
    var cross := CrossBrandPairs(bs);
    SameBrandPairsMembers(bs, p);
    FilterMembers(same, keep, p);
    FilterMembers(cross, keep, p);
  }

  /** An element is kept by a filter exactly when it is in the input and passes. */
  lemma FilterMembers<T>(s: seq<T>, keep: T -> bool, x: T)
    ensures x in Filter(s, keep) <==> x in s && keep(x)
  {
    var r := Filter(s, keep);
    if x in r {
      var i :| 0 <= i < |r| && r[i] == x;
    }
    if x in s && keep(x) {
      var i :| 0 <= i < |s| && s[i] == x;
    }
  }

  /** No pair of positions is emitted twice. */
  lemma EmittedPairsNoDuplicates(bs: seq<Bottle>, existing: set<string>)
    ensures NoDuplicates(EmittedPairs(bs, existing))
  {
    var keep := UnclaimedIn(bs, existing);
    var a := Filter(SameBrandPairs(bs), keep);
    var b := Filter(CrossBrandPairs(bs), keep);
    SameBrandPairsOrdered(bs);
    FilterKeepsChain(SameBrandPairs(bs), keep, SameBrandOrder(bs));
    FilterKeepsChain(CrossBrandPairs(bs), keep, LexBefore);
    var e := a + b;
    forall i, j | 0 <= i < j < |e|
      ensures e[i] != e[j]
    {
      if j < |a| {
        assert SameBrandOrder(bs)(a[i], a[j]);
      } else if i >= |a| {
        assert LexBefore(b[i - |a|], b[j - |a|]);
      } else {
        FilterMembers(SameBrandPairs(bs), keep, a[i]);
        FilterMembers(CrossBrandPairs(bs), keep, b[j - |a|]);
        PassesAreDisjoint(bs, a[i]);
      }
    }
  }

  /** All same-brand bundles come before all cross-brand ones; within the same-brand
      part brands come in the order of their first bottle and pairs in combination
      order, and the cross-brand part is in combination order. */
  lemma EmittedPairsOrder(bs: seq<Bottle>, existing: set<string>)
    ensures var e := EmittedPairs(bs, existing);
            forall i, j :: 0 <= i < j < |e| ==>
              (SameBrand(bs[e[j].lo], bs[e[j].hi]) ==>
                 SameBrand(bs[e[i].lo], bs[e[i].hi]) && SameBrandBefore(bs, e[i], e[j])) &&
              (!SameBrand(bs[e[i].lo], bs[e[i].hi]) ==>
                 !SameBrand(bs[e[j].lo], bs[e[j].hi]) && LexBefore(e[i], e[j]))
  {
    var keep := UnclaimedIn(bs, existing);
    var a := Filter(SameBrandPairs(bs), keep);
    var b := Filter(CrossBrandPairs(bs), keep);
    SameBrandPairsOrdered(bs);
    FilterKeepsChain(SameBrandPairs(bs), keep, SameBrandOrder(bs));
    FilterKeepsChain(CrossBrandPairs(bs), keep, LexBefore);
    var e := a + b;
    assert e == EmittedPairs(bs, existing);
    forall x | x in a
      ensures SameBrand(bs[x.lo], bs[x.hi])
    {
      FilterMembers(SameBrandPairs(bs), keep, x);
      SameBrandPairsMembers(bs, x);
    }
    forall i, j | 0 <= i < j < |e|
      ensures (SameBrand(bs[e[j].lo], bs[e[j].hi]) ==>
                 SameBrand(bs[e[i].lo], bs[e[i].hi]) && SameBrandBefore(bs, e[i], e[j])) &&
              (!SameBrand(bs[e[i].lo], bs[e[i].hi]) ==>
                 !SameBrand(bs[e[j].lo], bs[e[j].hi]) && LexBefore(e[i], e[j]))
    {
      if j < |a| {
        assert e[i] == a[i] && e[j] == a[j] && e[i] in a && e[j] in a;
        assert SameBrandOrder(bs)(a[i], a[j]);
      } else {
        assert e[j] == b[j - |a|];
        FilterMembers(CrossBrandPairs(bs), keep, e[j]);
        if i >= |a| {
          assert e[i] == b[i - |a|];
          FilterMembers(CrossBrandPairs(bs), keep, e[i]);
          assert LexBefore(b[i - |a|], b[j - |a|]);
        } else {
          assert e[i] == a[i] && e[i] in a;
        }
      }
    }
  }

  /** The names of a list of bundles. */
  function Names(r: seq<Bundle>): (names: set<string>)
    ensures forall i :: 0 <= i < |r| ==> r[i].name in names
  {
    set i | 0 <= i < |r| :: r[i].name
  }

  /** A bundle whose name is not in `existing`. */
  function NameFree(existing: set<string>): Bundle -> bool
  {
    (b: Bundle) => b.name !in existing
  }

  /** Building bundles commutes with dropping taken names. */
  lemma {:induction false} BundlesOfFilter(bs: seq<Bottle>, ps: seq<Pair>, existing: set<string>)
    requires forall i :: 0 <= i < |ps| ==> InRange(bs, ps[i])
    ensures forall i :: 0 <= i < |Filter(ps, UnclaimedIn(bs, existing))| ==>
              InRange(bs, Filter(ps, UnclaimedIn(bs, existing))[i])
    ensures BundlesOf(bs, Filter(ps, UnclaimedIn(bs, existing))) == Filter(BundlesOf(bs, ps), NameFree(existing))
    decreases |ps|
  {
    var keep := UnclaimedIn(bs, existing);
    if |ps| > 0 {
      var tail := ps[1..];
      BundlesOfFilter(bs, tail, existing);
      var all := BundlesOf(bs, ps);
      var rest := Filter(tail, keep);
      assert all[1..] == BundlesOf(bs, tail);
      assert NameFree(existing)(all[0]) == keep(ps[0]);
      if keep(ps[0]) {
        assert Filter(ps, keep) == [ps[0]] + rest;
        assert ([ps[0]] + rest)[1..] == rest;
      } else {
        assert Filter(ps, keep) == rest;
      }
    }
  }

  /** The existing names act purely as a filter: the result is the run without
      existing names, less the bundles whose names are taken, in the same order. */
  lemma ExistingOnlyFilters(bs: seq<Bottle>, existing: set<string>)
    ensures GenerateBundles(bs, existing) == Filter(GenerateBundles(bs, {}), NameFree(existing))
  {
    var all := EmittedPairs(bs, {});
    EmittedFromUnfiltered(bs, existing);
    BundlesOfFilter(bs, all, existing);
    GenerateBundlesIsBundlesOf(bs, existing);
    GenerateBundlesIsBundlesOf(bs, {});
  }

  lemma GenerateBundlesIsBundlesOf(bs: seq<Bottle>, existing: set<string>)
    ensures GenerateBundles(bs, existing) == BundlesOf(bs, EmittedPairs(bs, existing))
  {
  }

  /** The pairs emitted against `existing` are those emitted against no names, less
      the taken ones. */
  lemma EmittedFromUnfiltered(bs: seq<Bottle>, existing: set<string>)
    ensures EmittedPairs(bs, existing) == Filter(EmittedPairs(bs, {}), UnclaimedIn(bs, existing))
  {
    var same := SameBrandPairs(bs);
    var cross := CrossBrandPairs(bs);
    SameBrandPairsInRange(bs);
    FilterKeepsAll(same, UnclaimedIn(bs, {}));
    FilterKeepsAll(cross, UnclaimedIn(bs, {}));
    FilterAppend(same, cross, UnclaimedIn(bs, existing));
  }

  lemma SameBrandPairsInRange(bs: seq<Bottle>)
    ensures forall i :: 0 <= i < |SameBrandPairs(bs)| ==> InRange(bs, SameBrandPairs(bs)[i])
  {
    forall i | 0 <= i < |SameBrandPairs(bs)|
      ensures InRange(bs, SameBrandPairs(bs)[i])
    {
      SameBrandPairsMembers(bs, SameBrandPairs(bs)[i]);
    }
  }

  /** Every qualifying pair whose name is free ends up as a bundle. */
  lemma GenerateBundlesComplete(bs: seq<Bottle>, existing: set<string>, lo: nat, hi: nat)
    requires Qualifies(bs, Pair(lo, hi))
    requires BundleName(bs[lo], bs[hi]) !in existing
    ensures MakeBundle(bs[lo], bs[hi]) in GenerateBundles(bs, existing)
  {
    var p := Pair(lo, hi);
    var e := EmittedPairs(bs, existing);
    EmittedPairsMembers(bs, existing, p);
    var k :| 0 <= k < |e| && e[k] == p;
    assert GenerateBundles(bs, existing)[k] == MakeBundle(bs[lo], bs[hi]);
  }

  /** Recording a run's names and running again yields nothing new. */
  lemma RerunYieldsNothing(bs: seq<Bottle>, existing: set<string>)
    ensures GenerateBundles(bs, existing + Names(GenerateBundles(bs, existing))) == []
  {
    var r := GenerateBundles(bs, existing);
    var existing' := existing + Names(r);
    var all := GenerateBundles(bs, {});
    ExistingOnlyFilters(bs, existing);
    ExistingOnlyFilters(bs, existing');
    var r' := Filter(all, NameFree(existing'));
    if |r'| > 0 {
      var x := r'[0];
      FilterMembers(all, NameFree(existing), x);
    }
  }

  /** A sequence holding nothing but `x` is free of duplicates exactly when it has
      at most one element. */
  lemma ConstantSeqNoDuplicates<T>(s: seq<T>, x: T)
    requires forall i :: 0 <= i < |s| ==> s[i] == x
    ensures NoDuplicates(s) <==> |s| <= 1
  {
    if |s| > 1 {
      assert s[0] == s[1];
    }
  }

  /** Two bottles that qualify as a pair under a free name give exactly one bundle. */
  lemma TwoBottlesOneBundle(bs: seq<Bottle>, existing: set<string>)
    requires |bs| == 2
    requires Qualifies(bs, Pair(0, 1)) && BundleName(bs[0], bs[1]) !in existing
    ensures GenerateBundles(bs, existing) == [MakeBundle(bs[0], bs[1])]
  {
    var e := EmittedPairs(bs, existing);
    EmittedPairsMembers(bs, existing, Pair(0, 1));
    forall i | 0 <= i < |e|
      ensures e[i] == Pair(0, 1)
    {
      EmittedPairsMembers(bs, existing, e[i]);
    }
    EmittedPairsNoDuplicates(bs, existing);
    ConstantSeqNoDuplicates(e, Pair(0, 1));
    assert e == [Pair(0, 1)];
    GenerateBundlesIsBundlesOf(bs, existing);
  }

  /** Two bottles that do not qualify as a pair give no bundle. */
  lemma TwoBottlesNoBundle(bs: seq<Bottle>, existing: set<string>)
    requires |bs| == 2 && !Qualifies(bs, Pair(0, 1))
    ensures GenerateBundles(bs, existing) == []
  {
    var e := EmittedPairs(bs, existing);
    if |e| > 0 {
      EmittedPairsMembers(bs, existing, e[0]);
    }
  }

  /** Two bottles of one brand, nothing processed yet: exactly their bundle. */
  lemma SameBrandTwoBottles(a: Bottle, b: Bottle)
    requires a.brand == b.brand
    ensures GenerateBundles([a, b], {}) == [MakeBundle(a, b)]
  {
    TwoBottlesOneBundle([a, b], {});
  }

  /** Two 750 ml bottles of one brand at $39.99 and $49.99, nothing processed yet:
      one bundle, named after both, at $84.99. */
  lemma EndToEndExample()
    ensures var blanco := Bottle("Brand X Blanco 750ml", "Brand X", 3999);
            var reposado := Bottle("Brand X Reposado 750ml", "Brand X", 4999);
            GenerateBundles([blanco, reposado], {}) ==
              [Bundle("Brand X Blanco 750ml & Brand X Reposado 750ml", 8499, blanco, reposado)]
  {
    var blanco := Bottle("Brand X Blanco 750ml", "Brand X", 3999);
    var reposado := Bottle("Brand X Reposado 750ml", "Brand X", 4999);
    SameBrandTwoBottles(blanco, reposado);
    EndToEndBundle();
  }

  lemma EndToEndBundle()
    ensures var blanco := Bottle("Brand X Blanco 750ml", "Brand X", 3999);
            var reposado := Bottle("Brand X Reposado 750ml", "Brand X", 4999);
            MakeBundle(blanco, reposado) ==
              Bundle("Brand X Blanco 750ml & Brand X Reposado 750ml", 8499, blanco, reposado)
  {
    EndToEndName();
    RoundTo99Examples();
  }

  lemma EndToEndName()
    ensures BundleName(Bottle("Brand X Blanco 750ml", "Brand X", 3999), Bottle("Brand X Reposado 750ml", "Brand X", 4999)) ==
              "Brand X Blanco 750ml & Brand X Reposado 750ml"
  {
  }

  /** Bottles of different brands exactly $10.00 apart pair; $10.01 apart they do not. */
  lemma CrossBrandThreshold()
    ensures var a, b := Bottle("A1", "A", 3999), Bottle("B1", "B", 4999);
            GenerateBundles([a, b], {}) == [MakeBundle(a, b)]
    ensures var a, c := Bottle("A1", "A", 3999), Bottle("B2", "B", 5000);
            GenerateBundles([a, c], {}) == []
  {
    var a, b, c := Bottle("A1", "A", 3999), Bottle("B1", "B", 4999), Bottle("B2", "B", 5000);
    assert BrandKey(a)[0] == 'a' && BrandKey(b)[0] == 'b' && BrandKey(c)[0] == 'b';
    TwoBottlesOneBundle([a, b], {});
    TwoBottlesNoBundle([a, c], {});
  }
}

=== FILE: catalog.dfy ===
/** The records the bundle pipeline passes around, as immutable values.

    A scraped bottle is a dictionary with name, brand, price and image keys; only
    name, brand and price take part in bundling. A bundle is a dictionary with a
    derived name, a derived price and the list of its two bottles. */
module Catalog {
  import opened Chars
  import opened Money

  /** A scraped bottle; `price` is in cents. */
  datatype Bottle = Bottle(name: string, brand: string, price: nat)

  /** A candidate bundle of exactly two bottles; `price` is in cents. */
  datatype Bundle = Bundle(name: string, price: int, first: Bottle, second: Bottle)

  /** Flat discount taken off the two bottles' sum: $5.00. */
  const Discount: int := 500

  /** Largest price difference at which two bottles of different brands still pair: $10.00. */
  const PriceWindow: int := 1000

  /** Brands are grouped and compared case-insensitively (`brand.lower()`). */
  function BrandKey(b: Bottle): string
  {
    Lower(b.brand)
  }

  predicate SameBrand(a: Bottle, b: Bottle)
  {
    BrandKey(a) == BrandKey(b)
  }

  /** `abs(p1 - p2) <= 10`: the bound itself is included. */
  predicate CloseInPrice(a: Bottle, b: Bottle)
  {
    -PriceWindow <= a.price - b.price <= PriceWindow
  }

  /** The bundle name `f"{b1['name']} & {b2['name']}"`, also the de-duplication key. */
  function BundleName(a: Bottle, b: Bottle): (r: string)
    ensures |r| == |a.name| + 3 + |b.name|
    ensures r[..|a.name|] == a.name && r[|a.name|..|a.name| + 3] == " & " && r[|a.name| + 3..] == b.name
  {
    a.name + " & " + b.name
  }

  /** The bundle `_add_combo` appends: named after its two bottles, in the order
      given, and priced at the bottles' sum less the discount, rounded to .99: up by at
      most 1.00 when the sum covers the discount, and possibly down when it does not. */
  function MakeBundle(a: Bottle, b: Bottle): (r: Bundle)
    ensures r.first == a && r.second == b
    ensures r.name == BundleName(a, b)
    ensures Abs(r.price) % 100 == 99
    ensures a.price + b.price - Discount - 200 < r.price <= a.price + b.price - Discount + 100
    ensures a.price + b.price >= Discount ==> a.price + b.price - Discount < r.price
  {
    Bundle(BundleName(a, b), RoundTo99(a.price + b.price - Discount), a, b)
  }

  /** The score-cache key `f"{n1}||{n2}"` of a bundle: ordered, so (A, B) and (B, A)
      are different keys. */
  function PairKey(b: Bundle): (r: string)
    ensures |r| == |b.first.name| + 2 + |b.second.name|
  {
    b.first.name + "||" + b.second.name
  }

  /** The key is the first bottle's name, "||", then the second bottle's name. */
  lemma PairKeyLayout(b: Bundle)
    ensures PairKey(b)[..|b.first.name|] == b.first.name
    ensures PairKey(b)[|b.first.name|..|b.first.name| + 2] == "||"
    ensures PairKey(b)[|b.first.name| + 2..] == b.second.name
  {
  }
}

=== FILE: categories.dfy ===
/** `get_product_category` of category_utils.py: a fixed table from liquor category to
    Google product-category path, with a general path for everything else. */
module Categories {
  /** The fallback path, which every path of the table extends. */
  const Base := "Food, Beverages & Tobacco > Beverages > Alcoholic Beverages"

  /** The common stem of the table's paths. */
  const Spirits := Base + " > Liquor & Spirits > "

  /** The nine categories the table knows, keyed case-sensitively. */
  const Paths: map<string, string> := map[
    "Tequila" := Spirits + "Tequila",
    "Whiskey" := Spirits + "Whiskey",
    "Vodka" := Spirits + "Vodka",
    "Gin" := Spirits + "Gin",
    "Rum" := Spirits + "Rum",
    "Cognac" := Spirits + "Cognac",
    "Mezcal" := Spirits + "Mezcal",
    "Liqueur" := Spirits + "Liqueurs",
    "Brandy" := Spirits + "Brandy"
  ]

  /** The table's path for `category`, or the fallback. */
  function ProductCategory(category: string): (r: string)
    ensures category in Paths ==> r == Paths[category]
    ensures Base <= r
    ensures r == Base <==> category !in Paths
  {
    assert forall k :: k in Paths ==> Base <= Spirits <= Paths[k] && |Paths[k]| > |Base|;
    if category in Paths then Paths[category] else Base
  }

  /** The listed keys and no others. */
  lemma ListedCategories()
    ensures Paths.Keys == {"Tequila", "Whiskey", "Vodka", "Gin", "Rum", "Cognac", "Mezcal", "Liqueur", "Brandy"}
  {
  }

  /** 'Tequila' gets its spirits path. */
  lemma TequilaPath()
    ensures ProductCategory("Tequila") == Base + " > Liquor & Spirits > Tequila"
  {
    assert Paths["Tequila"] == Spirits + "Tequila";
  }

  /** 'Liqueur' gets a path in the plural. */
  lemma LiqueurPath()
    ensures ProductCategory("Liqueur") == Base + " > Liquor & Spirits > Liqueurs"
  {
    assert Paths["Liqueur"] == Spirits + "Liqueurs";
  }

  /** The lookup is case-sensitive: 'tequila' falls back, like any unlisted category. */
  lemma FallbackExamples()
    ensures ProductCategory("tequila") == "Food, Beverages & Tobacco > Beverages > Alcoholic Beverages"
    ensures ProductCategory("Absinthe") == "Food, Beverages & Tobacco > Beverages > Alcoholic Beverages"
  {
    ListedCategories();
    assert "tequila" !in Paths.Keys && "Absinthe" !in Paths.Keys;
  }
}

=== FILE: chars.dfy ===
/** Character classes and digit strings, restricted to ASCII.

    Python's `re` module and `str.lower()` work on the full Unicode tables; this
    model reads `\d` as '0'..'9', `\w` as ASCII letters, digits and '_', `\s` as
    the ASCII characters `str.isspace()` accepts, and lower-casing as 'A'..'Z' to
    'a'..'z'. */
module Chars {

  predicate IsDigit(c: char) { '0' <= c <= '9' }

  predicate IsUpper(c: char) { 'A' <= c <= 'Z' }

  predicate IsLowerLetter(c: char) { 'a' <= c <= 'z' }

  /** Regex `\w`. */
  predicate IsWordChar(c: char) { IsDigit(c) || IsUpper(c) || IsLowerLetter(c) || c == '_' }

  /** Regex `\s` and `str.strip()`: space, \t, \n, \v, \f, \r and the separators \x1c-\x1f. */
  predicate IsSpace(c: char) { c == ' ' || 9 <= c as int <= 13 || 0x1c <= c as int <= 0x1f }

  /** The class `[\w\s-]`: what `clean_text` and `create_handle` keep. */
  predicate IsKept(c: char) { IsWordChar(c) || IsSpace(c) || c == '-' }

  /** `str.lower()` on one character. */
  function ToLower(c: char): (r: char)
    ensures !IsUpper(r)
    ensures IsWordChar(r) <==> IsWordChar(c)
    ensures IsSpace(r) <==> IsSpace(c)
    ensures IsDigit(r) <==> IsDigit(c)
    ensures !IsUpper(c) ==> r == c
  {
    if IsUpper(c) then (c as int - 'A' as int + 'a' as int) as char else c
  }

  /** `str.lower()`. */
  function Lower(s: string): (r: string)
    ensures |r| == |s|
    ensures forall i :: 0 <= i < |s| ==> r[i] == ToLower(s[i])
  {
    seq(|s|, i requires 0 <= i < |s| => ToLower(s[i]))
  }

  /** Lower-casing distributes over concatenation. */
  lemma LowerAppend(a: string, b: string)
    ensures Lower(a + b) == Lower(a) + Lower(b)
  {
    assert forall i :: 0 <= i < |a| ==> (a + b)[i] == a[i];
    assert forall i :: |a| <= i < |a| + |b| ==> (a + b)[i] == b[i - |a|];
  }

  /** Text without upper-case letters is left alone by lower-casing. */
  lemma LowerOfLower(s: string)
    requires forall i :: 0 <= i < |s| ==> !IsUpper(s[i])
    ensures Lower(s) == s
  {
  }

  function DigitValue(c: char): (d: nat)
    ensures d < 10
  {
    if IsDigit(c) then c as int - '0' as int else 0
  }

  function DigitChar(d: nat): (c: char)
    requires d < 10
    ensures IsDigit(c) && DigitValue(c) == d
  {
    ('0' as int + d) as char
  }

  /** The number a run of decimal digits denotes (Python's `int(...)` on it). */
  function DigitsValue(s: string): nat
  {
    if |s| == 0 then 0 else DigitsValue(s[..|s| - 1]) * 10 + DigitValue(s[|s| - 1])
  }

  /** Appending a digit shifts the value one decimal place. */
  lemma DigitsValueSnoc(s: string, c: char)
    ensures DigitsValue(s + [c]) == DigitsValue(s) * 10 + DigitValue(c)
  {
    assert (s + [c])[..|s|] == s;
  }

  /** Decimal notation of `n` without leading zeros (Python's `str(n)`). */
  function Decimal(n: nat): (r: string)
    ensures |r| > 0
    ensures r[0] == '0' <==> n == 0
    ensures forall i :: 0 <= i < |r| ==> IsDigit(r[i])
    ensures DigitsValue(r) == n
  {
    if n < 10 then [DigitChar(n)]
    else
      var r := Decimal(n / 10) + [DigitChar(n % 10)];
      assert r[..|r| - 1] == Decimal(n / 10);
      r
  }

  /** Length of the longest run of characters satisfying `p` that starts at `i`:
      what a greedy `p*` consumes there. */
  function RunLength(t: string, i: nat, p: char -> bool): (n: nat)
    requires i <= |t|
    ensures i + n <= |t|
    ensures forall k :: i <= k < i + n ==> p(t[k])
    ensures i + n == |t| || !p(t[i + n])
    decreases |t| - i
  {
    if i < |t| && p(t[i]) then 1 + RunLength(t, i + 1, p) else 0
  }

  /** The run is determined by its two defining properties. */
  lemma RunLengthUnique(t: string, i: nat, p: char -> bool, n: nat)
    requires i + n <= |t|
    requires forall k :: i <= k < i + n ==> p(t[k])
    requires i + n == |t| || !p(t[i + n])
    ensures RunLength(t, i, p) == n
  {
  }
}

=== FILE: exporter.dfy ===
/** The pure part of csv_exporter.py: `create_handle` and the row written for each
    bundle. Opening the file and the CSV quoting are not modelled. */
module Exporter {
  import opened Chars
  import opened Seqs
  import opened Optional
  import opened Money
  import opened Scraper

  /** `str.replace(' ', '-')`. */
  function Hyphenate(s: string): (r: string)
    ensures |r| == |s|
    ensures forall i :: 0 <= i < |s| ==> r[i] == if s[i] == ' ' then '-' else s[i]
  {
    seq(|s|, i requires 0 <= i < |s| => if s[i] == ' ' then '-' else s[i])
  }

  /** A Shopify handle: lower case, and only word characters, whitespace other than
      the plain space, and '-'. */
  predicate IsHandle(s: string)
  {
    forall k :: 0 <= k < |s| ==> s[k] != ' ' && !IsUpper(s[k]) && IsKept(s[k])
  }

  /** `create_handle`: characters outside `[\w\s-]` removed, the rest lower-cased and
      every space turned into '-'. */
  function CreateHandle(name: string): (r: string)
    ensures IsHandle(r)
    ensures |r| == |Filter(name, IsKept)| <= |name|
  {
    Hyphenate(Lower(Filter(name, IsKept)))
  }

  /** Replacing spaces distributes over concatenation. */
  lemma HyphenateAppend(a: string, b: string)
    ensures Hyphenate(a + b) == Hyphenate(a) + Hyphenate(b)
  {
    assert forall i :: 0 <= i < |a| ==> (a + b)[i] == a[i];
    assert forall i :: |a| <= i < |a| + |b| ==> (a + b)[i] == b[i - |a|];
  }

  /** The handle is built character by character: the handle of a concatenation is
      the concatenation of the handles. */
  lemma CreateHandleAppend(a: string, b: string)
    ensures CreateHandle(a + b) == CreateHandle(a) + CreateHandle(b)
  {
    FilterAppend(a, b, IsKept);
    LowerAppend(Filter(a, IsKept), Filter(b, IsKept));
    HyphenateAppend(Lower(Filter(a, IsKept)), Lower(Filter(b, IsKept)));
  }

  /** What one character becomes: nothing when it is outside `[\w\s-]`, '-' for a
      space, and otherwise the character lower-cased. With `CreateHandleAppend` this
      fixes the handle of every name. */
  lemma CreateHandleChar(c: char)
    ensures CreateHandle([c]) == if !IsKept(c) then [] else if c == ' ' then "-" else [ToLower(c)]
  {
    assert [c][1..] == [];
    assert Filter([c][1..], IsKept) == [];
    if IsKept(c) {
      assert Filter([c], IsKept) == [c];
      assert ToLower(c) == ' ' <==> c == ' ';
    } else {
      assert Filter([c], IsKept) == [];
    }
  }

  /** A handle is its own handle. */
  lemma HandleIsFixed(s: string)
    requires IsHandle(s)
    ensures CreateHandle(s) == s
  {
    FilterKeepsAll(s, IsKept);
    LowerOfLower(s);
  }

  /** Exactly the handles are their own handles. */
  lemma FixedIffHandle(s: string)
    ensures CreateHandle(s) == s <==> IsHandle(s)
  {
    if IsHandle(s) {
      HandleIsFixed(s);
    }
  }

  /** Making a handle of a handle changes nothing. */
  lemma CreateHandleIdempotent(name: string)
    ensures CreateHandle(CreateHandle(name)) == CreateHandle(name)
  {
    HandleIsFixed(CreateHandle(name));
  }

  /** "A & B" becomes "a--b": the '&' goes and both spaces around it become '-'. */
  lemma CreateHandleExample()
    ensures CreateHandle("A & B") == "a--b"
  {
    AmpersandDropped();
    SpacesHyphenated();
  }

  lemma AmpersandDropped()
    ensures Filter("A & B", IsKept) == "A  B"
  {
    var before, after := "A ", " B";
    assert IsKept(before[0]) && IsKept(before[1]) && IsKept(after[0]) && IsKept(after[1]);
    assert !IsKept('&');
    assert before + ['&'] + after == "A & B";
    FilterDropsOne(before, '&', after, IsKept);
  }

  /** Filtering out the one unwanted element between two wanted runs joins the runs. */
  lemma FilterDropsOne<T>(a: seq<T>, x: T, b: seq<T>, keep: T -> bool)
    requires forall k :: 0 <= k < |a| ==> keep(a[k])
    requires forall k :: 0 <= k < |b| ==> keep(b[k])
    requires !keep(x)
    ensures Filter(a + [x] + b, keep) == a + b
  {
    assert [x][1..] == [];
    assert Filter([x], keep) == [];
    FilterAppend(a, [x], keep);
    FilterKeepsAll(a, keep);
    assert Filter(a + [x], keep) == a;
    FilterAppend(a + [x], b, keep);
    FilterKeepsAll(b, keep);
  }

  lemma SpacesHyphenated()
    ensures Hyphenate(Lower("A  B")) == "a--b"
  {
    assert Lower("A  B") == "a  b";
  }

  /** A bundle as handed to the exporter; `description`, `sku` and `image_src` may be
      missing from the dictionary. Prices are in cents. */
  datatype Listing = Listing(
    name: string,
    price: int,
    description: Option<string>,
    sku: Option<string>,
    imageSrc: Option<string>)

  /** One CSV row, one field per column of the header. */
  datatype ExportRow = ExportRow(
    handle: string,
    title: string,
    body: string,
    vendor: string,
    productType: string,
    tags: string,
    published: string,
    optionName: string,
    optionValue: string,
    sku: string,
    price: string,
    inventory: int,
    imageSrc: string,
    status: string)

  const Vendor := "Liquor Bundle"
  const ProductType := "Bundle"
  const Tags := "Bundles, Liquor"
  const Published := "TRUE"
  const OptionName := "Title"
  const OptionValue := "Default Title"
  const Inventory := 10
  const Status := "active"

  /** The row written for one bundle. */
  function RowOf(b: Listing): (r: ExportRow)
    ensures r.title == b.name && IsHandle(r.handle)
    ensures b.description.None? ==> r.body == ""
    ensures b.sku.None? ==> r.sku == ""
    ensures b.imageSrc.None? ==> r.imageSrc == ""
    ensures b.description.Some? ==> r.body == b.description.value
    ensures b.sku.Some? ==> r.sku == b.sku.value
    ensures b.imageSrc.Some? ==> r.imageSrc == b.imageSrc.value
    ensures r.vendor == Vendor && r.productType == ProductType && r.tags == Tags
    ensures r.published == Published && r.optionName == OptionName && r.optionValue == OptionValue
    ensures r.inventory == Inventory && r.status == Status
  {
    ExportRow(
      CreateHandle(b.name),
      b.name,
      b.description.GetOr(""),
      Vendor,
      ProductType,
      Tags,
      Published,
      OptionName,
      OptionValue,
      b.sku.GetOr(""),
      FormatCents(b.price),
      Inventory,
      b.imageSrc.GetOr(""),
      Status)
  }

  /** The row's handle is the title's handle, and it is already a handle. */
  lemma RowHandle(b: Listing)
    ensures CreateHandle(RowOf(b).title) == RowOf(b).handle
    ensures CreateHandle(RowOf(b).handle) == RowOf(b).handle
  {
    CreateHandleIdempotent(b.name);
  }

  /** The price column holds exactly two decimals, starts with '-' exactly when the
      price is negative, and the scraper's price pattern reads the amount back
      without its sign. */
  lemma RowPriceReadsBack(b: Listing)
    ensures var p := RowOf(b).price;
            |p| >= 4 && p[|p| - 3] == '.' && IsDigit(p[|p| - 2]) && IsDigit(p[|p| - 1])
    ensures ExtractPrice(RowOf(b).price) == Some(if b.price < 0 then -b.price else b.price)
    ensures RowOf(b).price[0] == '-' <==> b.price < 0
  {
    ExtractPriceOfFormatted(b.price);
  }

  /** A bundle of 84.99 is listed at "84.99". */
  lemma RowPriceExample(b: Listing)
    requires b.price == 8499
    ensures RowOf(b).price == "84.99"
  {
    FormatCentsExamples();
  }
}

=== FILE: money.dfy ===
/** Money in whole cents: the `.99` price rounding used for bundle prices and the
    two-decimal rendering used in the export row. */
module Money {
  import opened Chars

  /** The magnitude of an amount. */
  function Abs(x: int): nat
  {
    if x < 0 then -x else x
  }

  /** The amount Python's `float(f"{k}.99")` reads: `k` whole units and 99 cents, the
      minus sign of a negative `k` covering the ".99" as well. */
  function DotNinetyNine(k: int): (r: int)
    ensures Abs(r) / 100 == Abs(k) && Abs(r) % 100 == 99
    ensures r < 0 <==> k < 0
  {
    if k >= 0 then k * 100 + 99 else k * 100 - 99
  }

  /** `round_to_99`: the floor of the price keeps its whole units and gets .99 as its
      cents, unless its cents were already .99, when the next whole unit's .99 is
      taken. Every result prints with ".99"; a non-negative amount moves up by at
      most 1.00, and a negative one can move down by almost 2.00, because the minus
      sign covers the ".99" (-3.00 becomes -3.99). */
  function RoundTo99(cents: int): (r: int)
    ensures Abs(r) % 100 == 99
    ensures cents - 200 < r <= cents + 100
    ensures cents >= 0 ==> cents < r
    ensures r < 0 <==> cents < -1
  {
    var whole := cents / 100;  // math.floor: Dafny's division rounds down for a positive divisor
    if cents % 100 < 99 then DotNinetyNine(whole) else DotNinetyNine(whole + 1)
  }

  /** For a non-negative amount the properties above single out the result: no other
      amount ending in .99 lies in the window (cents, cents + 1.00]. */
  lemma RoundTo99Unique(cents: int, r: int)
    requires cents >= 0
    requires r % 100 == 99 && cents < r <= cents + 100
    ensures r == RoundTo99(cents)
  {
    var q := RoundTo99(cents);
    assert r - r % 100 == (r / 100) * 100 && q - q % 100 == (q / 100) * 100;
  }

  /** The result lies above the amount exactly when the amount is non-negative or is
      -0.01 (which becomes 0.99); every other negative amount is pushed below itself. */
  lemma RoundTo99AboveIff(cents: int)
    ensures cents < RoundTo99(cents) <==> cents >= 0 || cents == -1
  {
    if cents < 0 && cents != -1 {
      var whole := cents / 100;
      assert whole <= -1;
      if cents % 100 == 99 {
        assert whole + 1 < 0;
      }
    }
  }

  /** The printed result always ends in ".99": `f"{k}.99"` read back and written
      with `:.2f` gives the same text. */
  lemma RoundTo99PrintsNinetyNine(cents: int)
    ensures var t := FormatCents(RoundTo99(cents)); t[|t| - 3..] == ".99"
  {
    var r := RoundTo99(cents);
    var m := Abs(r);
    FormatUnsignedLayout(m);
    assert m % 100 / 10 == 9 && m % 10 == 9;
    assert DigitChar(9) == '9';
    var t := FormatCents(r);
    assert t[|t| - 3..] == "." + [DigitChar(m % 100 / 10), DigitChar(m % 10)];
  }

  /** The worked examples of the source's docstrings and of the bundle pricing rule,
      and a pair of $1.00 bottles: 2.00 - 5.00 = -3.00 becomes -3.99. */
  lemma RoundTo99Examples()
    ensures RoundTo99(19498) == 19499
    ensures RoundTo99(13140) == 13199
    ensures RoundTo99(9910) == 9999
    ensures RoundTo99(5000) == 5099
    ensures RoundTo99(1299) == 1399
    ensures RoundTo99(3999 + 4999 - 500) == 8499
    ensures RoundTo99(100 + 100 - 500) == -399
    ensures RoundTo99(499 - 500) == 99
    ensures RoundTo99(299 - 500) == -299
  {
  }

  /** Python's `f"{x:.2f}"` for an amount of `cents` hundredths. */
  function FormatCents(cents: int): (r: string)
    ensures |r| >= 4
    ensures r[|r| - 3] == '.' && IsDigit(r[|r| - 2]) && IsDigit(r[|r| - 1])
    ensures cents >= 0 ==> IsDigit(r[0])
    ensures cents < 0 ==> r[0] == '-'
  {
    if cents < 0 then "-" + FormatUnsigned(-cents) else FormatUnsigned(cents)
  }

  /** Whole units without leading zeros, a point, and exactly two cent digits. */
  function FormatUnsigned(cents: nat): (r: string)
    ensures |r| >= 4 && IsDigit(r[0])
    ensures r[0] == '0' <==> cents < 100
    ensures r[|r| - 3] == '.' && IsDigit(r[|r| - 2]) && IsDigit(r[|r| - 1])
    ensures forall i :: 0 <= i < |r| - 3 ==> IsDigit(r[i])
    ensures DigitsValue(r[..|r| - 3]) * 100 + DigitsValue(r[|r| - 2..]) == cents
  {
    var whole := Decimal(cents / 100);
    var tens := DigitChar(cents % 100 / 10);
    var units := DigitChar(cents % 10);
    var r := whole + "." + [tens, units];
    assert r[..|r| - 3] == whole;
    assert r[|r| - 2..] == [tens, units];
    DigitsValueSnoc([], tens);
    DigitsValueSnoc([tens], units);
    assert [] + [tens] == [tens] && [tens] + [units] == [tens, units];
    assert DigitsValue([tens, units]) == (cents % 100 / 10) * 10 + cents % 10;
    r
  }

  /** How `FormatUnsigned` lays out its digits. */
  lemma FormatUnsignedLayout(cents: nat)
    ensures FormatUnsigned(cents) == Decimal(cents / 100) + "." + [DigitChar(cents % 100 / 10), DigitChar(cents % 10)]
  {
  }

  /** 84.99 is written "84.99", five cents "0.05" (a leading zero) and -4.99 "-4.99". */
  lemma FormatCentsExamples()
    ensures FormatCents(8499) == "84.99"
    ensures FormatCents(5) == "0.05"
    ensures FormatCents(-499) == "-4.99"
  {
    Format8499();
    Format5();
    Format499();
  }

  lemma Format8499()
    ensures FormatCents(8499) == "84.99"
  {
    FormatUnsignedLayout(8499);
    assert 8499 / 100 == 84 && 8499 % 100 / 10 == 9 && 8499 % 10 == 9;
    assert DigitChar(4) == '4' && DigitChar(8) == '8' && DigitChar(9) == '9';
    assert Decimal(84) == Decimal(8) + [DigitChar(4)] == "84";
  }

  lemma Format5()
    ensures FormatCents(5) == "0.05"
  {
    FormatUnsignedLayout(5);
    assert DigitChar(0) == '0' && DigitChar(5) == '5';
    assert Decimal(0) == "0";
  }

  lemma Format499()
    ensures FormatCents(-499) == "-4.99"
  {
    FormatUnsignedLayout(499);
    assert 499 / 100 == 4 && 499 % 100 / 10 == 9 && 499 % 10 == 9;
    assert DigitChar(4) == '4' && DigitChar(9) == '9';
    assert Decimal(4) == "4";
  }
}

=== FILE: optional.dfy ===
/** The model's stand-in for Python's `None`-or-value returns. */
module Optional {

  datatype Option<+T> = None | Some(value: T)
  {
    /** The value, or `default` for `None` (Python's `d.get(k, default)` idiom). */
    function GetOr(default: T): T
    {
      match this
      case Some(v) => v
      case None => default
    }
  }

  /** The first present value at or after index `i`: how `re.search` picks the match
      at the leftmost position, given the reading at every position. */
  function FirstSome<X>(s: seq<Option<X>>, i: nat): (r: Option<X>)
    requires i <= |s|
    ensures r.None? <==> forall k :: i <= k < |s| ==> s[k].None?
    decreases |s| - i
  {
    if i == |s| then None
    else if s[i].Some? then s[i]
    else FirstSome(s, i + 1)
  }

  /** Positions holding nothing are skipped. */
  lemma {:induction false} FirstSomeSkips<X>(s: seq<Option<X>>, i: nat, p: nat)
    requires i <= p <= |s|
    requires forall k :: i <= k < p ==> s[k].None?
    ensures FirstSome(s, i) == FirstSome(s, p)
    decreases p - i
  {
    if i < p {
      FirstSomeSkips(s, i + 1, p);
    }
  }

  /** A value at the leftmost holding position is the one found. */
  lemma FirstSomeAt<X>(s: seq<Option<X>>, i: nat, p: nat)
    requires i <= p < |s|
    requires forall k :: i <= k < p ==> s[k].None?
    requires s[p].Some?
    ensures FirstSome(s, i) == s[p]
  {
    FirstSomeSkips(s, i, p);
  }
}

=== FILE: pairs.dfy ===
/** The two enumeration passes of `generate_bundles`, over input positions.

    A pair of positions stands for the two bottles at those positions. The
    same-brand pass groups the bottles by lower-cased brand (a dictionary, so the
    groups come in the order their first bottle appears) and takes every
    2-combination of each group; the cross-brand pass takes every 2-combination of
    the whole list whose bottles differ in brand and lie within $10 of each other.
    `itertools.combinations` yields pairs in lexicographic order of position. */
module Pairs {
  import opened Seqs
  import opened Catalog

  /** Positions `lo` and `hi` of a list; as produced below, `lo < hi`. */
  datatype Pair = Pair(lo: nat, hi: nat)

  /** The order in which `itertools.combinations` yields pairs. */
  predicate LexBefore(p: Pair, q: Pair)
  {
    p.lo < q.lo || (p.lo == q.lo && p.hi < q.hi)
  }

  predicate Less(a: nat, b: nat)
  {
    a < b
  }

  /** Strictly increasing positions. */
  ghost predicate Increasing(g: seq<nat>)
  {
    Chain(g, Less)
  }

  /** The positions 0, 1, ..., n - 1. */
  function Range(n: nat): (r: seq<nat>)
    ensures |r| == n
    ensures forall i :: 0 <= i < n ==> r[i] == i
  {
    seq(n, i => i)
  }

  /** The pairs (x, y) for each y of `rest`, in order. */
  function PairsWith(x: nat, rest: seq<nat>): (r: seq<Pair>)
    ensures |r| == |rest|
    ensures forall i :: 0 <= i < |r| ==> r[i] == Pair(x, rest[i])
  {
    seq(|rest|, i requires 0 <= i < |rest| => Pair(x, rest[i]))
  }

  /** `itertools.combinations(g, 2)`: each element paired with every later one. */
  function Combinations2(g: seq<nat>): seq<Pair>
    decreases |g|
  {
    if |g| == 0 then [] else PairsWith(g[0], g[1..]) + Combinations2(g[1..])
  }

  lemma IncreasingTail(g: seq<nat>)
    requires |g| > 0 && Increasing(g)
    ensures Increasing(g[1..])
    ensures forall y :: y in g[1..] ==> g[0] < y
  {
    forall i, j | 0 <= i < j < |g[1..]|
      ensures Less(g[1..][i], g[1..][j])
    {
      assert g[1..][i] == g[i + 1] && g[1..][j] == g[j + 1];
    }
    forall y | y in g[1..]
      ensures g[0] < y
    {
      var k :| 0 <= k < |g[1..]| && g[1..][k] == y;
      assert Less(g[0], g[k + 1]);
    }
  }

  /** The combinations of increasing positions are exactly the ordered pairs of them. */
  lemma {:induction false} Combinations2Members(g: seq<nat>, p: Pair)
    requires Increasing(g)
    ensures p in Combinations2(g) <==> p.lo in g && p.hi in g && p.lo < p.hi
    decreases |g|
  {
    if |g| > 0 {
      IncreasingTail(g);
      Combinations2Members(g[1..], p);
      var head := PairsWith(g[0], g[1..]);
      assert Combinations2(g) == head + Combinations2(g[1..]);
      if p in head {
        var k :| 0 <= k < |head| && head[k] == p;
        assert p.hi == g[1..][k];
      }
      if p.lo == g[0] && p.hi in g[1..] {
        var k :| 0 <= k < |g[1..]| && g[1..][k] == p.hi;
        assert head[k] == p;
      }
      if p.lo in g && p.hi in g && p.lo < p.hi {
        if p.lo == g[0] {
          assert p.hi != g[0];
          assert p.hi in g[1..];
        } else {
          assert p.lo in g[1..];
          assert p.hi != g[0] by {
            var k :| 0 <= k < |g[1..]| && g[1..][k] == p.lo;
          }
          assert p.hi in g[1..];
        }
      }
    }
  }

  /** The combinations of increasing positions come out in lexicographic order. */
  lemma {:induction false} Combinations2Ordered(g: seq<nat>)
    requires Increasing(g)
    ensures Chain(Combinations2(g), LexBefore)
    decreases |g|
  {
    if |g| > 0 {
      IncreasingTail(g);
      Combinations2Ordered(g[1..]);
      var head := PairsWith(g[0], g[1..]);
      var tail := Combinations2(g[1..]);
      forall i, j | 0 <= i < j < |head|
        ensures LexBefore(head[i], head[j])
      {
        assert Less(g[1..][i], g[1..][j]);
      }
      forall i, j | 0 <= i < |head| && 0 <= j < |tail|
        ensures LexBefore(head[i], tail[j])
      {
        Combinations2Members(g[1..], tail[j]);
      }
      ChainAppend(head, tail, LexBefore);
    }
  }

  lemma RangeIncreasing(n: nat)
    ensures Increasing(Range(n))
  {
  }

  /** The positions of the bottles whose brand key is `key`, in input order: the
      list `brand_map[key]`, built by appending each bottle to its brand's list. */
  function Members(bs: seq<Bottle>, key: string): (r: seq<nat>)
    ensures forall i :: 0 <= i < |r| ==> r[i] < |bs| && BrandKey(bs[r[i]]) == key
    ensures forall i :: 0 <= i < |bs| && BrandKey(bs[i]) == key ==> i in r
    ensures Increasing(r)
    decreases |bs|
  {
    if |bs| == 0 then []
    else
      var init := bs[..|bs| - 1];
      var prev := Members(init, key);
      assert forall i :: 0 <= i < |init| ==> bs[i] == init[i];
      var last: nat := |bs| - 1;
      if BrandKey(bs[last]) == key then
        ChainAppend<nat>(prev, [last], Less);
        prev + [last]
      else prev
  }

  /** The position of the first bottle sharing the brand of the bottle at `i`. */
  function FirstOfBrand(bs: seq<Bottle>, i: nat): (f: nat)
    requires i < |bs|
    ensures f <= i && BrandKey(bs[f]) == BrandKey(bs[i])
  {
    var m := Members(bs, BrandKey(bs[i]));
    assert i in m;
    var k :| 0 <= k < |m| && m[k] == i;
    assert k == 0 || Less(m[0], m[k]);
    m[0]
  }

  /** The group of brand `k1` was opened before the group of brand `k2`. */
  predicate GroupOpensBefore(bs: seq<Bottle>, k1: string, k2: string)
  {
    |Members(bs, k1)| > 0 && |Members(bs, k2)| > 0 && Members(bs, k1)[0] < Members(bs, k2)[0]
  }

  /** The keys of `brand_map` in insertion order (`setdefault` adds a key when its
      brand's first bottle is met): every brand key of the list, each once. */
  function BrandOrder(bs: seq<Bottle>): (r: seq<string>)
    ensures NoDuplicates(r)
    ensures forall k :: k in r ==> exists i :: 0 <= i < |bs| && BrandKey(bs[i]) == k
    ensures forall i :: 0 <= i < |bs| ==> BrandKey(bs[i]) in r
    decreases |bs|
  {
    if |bs| == 0 then []
    else
      var init := bs[..|bs| - 1];
      var prev := BrandOrder(init);
      var k := BrandKey(bs[|bs| - 1]);
      assert forall i :: 0 <= i < |init| ==> bs[i] == init[i];
      if k in prev then prev else prev + [k]
  }

  /** Dictionary order is first-appearance order: each listed brand's group opens
      before the group of every brand listed after it. */
  lemma {:induction false} BrandOrderFollowsFirstBottles(bs: seq<Bottle>)
    ensures forall a, b :: 0 <= a < b < |BrandOrder(bs)| ==>
              GroupOpensBefore(bs, BrandOrder(bs)[a], BrandOrder(bs)[b])
    decreases |bs|
  {
    if |bs| > 0 {
      BrandOrderFollowsFirstBottles(bs[..|bs| - 1]);
      forall a, b | 0 <= a < b < |BrandOrder(bs)|
        ensures GroupOpensBefore(bs, BrandOrder(bs)[a], BrandOrder(bs)[b])
      {
        BrandOrderStep(bs, bs[..|bs| - 1], a, b);
      }
    }
  }

  /** One step of the induction: the order of the list without its last bottle
      carries over, and a brand the last bottle adds opens last. */
  lemma BrandOrderStep(bs: seq<Bottle>, init: seq<Bottle>, a: nat, b: nat)
    requires |bs| > 0 && init == bs[..|bs| - 1]
    requires forall a, b :: 0 <= a < b < |BrandOrder(init)| ==>
               GroupOpensBefore(init, BrandOrder(init)[a], BrandOrder(init)[b])
    requires a < b < |BrandOrder(bs)|
    ensures GroupOpensBefore(bs, BrandOrder(bs)[a], BrandOrder(bs)[b])
  {
    var prev := BrandOrder(init);
    var r := BrandOrder(bs);
    assert r[a] == prev[a];
    MembersKeepFirst(bs, r[a]);
    if b < |prev| {
      assert r[b] == prev[b];
      MembersKeepFirst(bs, r[b]);
      assert GroupOpensBefore(init, prev[a], prev[b]);
    } else {
      MembersOfNewBrand(bs);
    }
  }

  /** A brand of the list has a non-empty group. */
  lemma ListedBrandHasMembers(bs: seq<Bottle>, key: string)
    requires key in BrandOrder(bs)
    ensures |Members(bs, key)| > 0
  {
    var i :| 0 <= i < |bs| && BrandKey(bs[i]) == key;
    assert i in Members(bs, key);
  }

  /** Appending a bottle leaves the first member of an already listed brand alone. */
  lemma MembersKeepFirst(bs: seq<Bottle>, key: string)
    requires |bs| > 0 && key in BrandOrder(bs[..|bs| - 1])
    ensures |Members(bs[..|bs| - 1], key)| > 0 && |Members(bs, key)| > 0
    ensures Members(bs, key)[0] == Members(bs[..|bs| - 1], key)[0]
  {
    ListedBrandHasMembers(bs[..|bs| - 1], key);
  }

  /** The first bottle of a brand opens a group holding just that bottle. */
  lemma MembersOfNewBrand(bs: seq<Bottle>)
    requires |bs| > 0 && BrandKey(bs[|bs| - 1]) !in BrandOrder(bs[..|bs| - 1])
    ensures Members(bs, BrandKey(bs[|bs| - 1])) == [|bs| - 1]
  {
  }

  /** The 2-combinations of every group, group after group. */
  function GroupPairs(bs: seq<Bottle>, keys: seq<string>): seq<Pair>
    decreases |keys|
  {
    if |keys| == 0 then []
    else Combinations2(Members(bs, keys[0])) + GroupPairs(bs, keys[1..])
  }

  /** The pairs of the same-brand pass (step 2-A). */
  function SameBrandPairs(bs: seq<Bottle>): seq<Pair>
  {
    GroupPairs(bs, BrandOrder(bs))
  }

  /** The groups listed in `keys` yield exactly the ordered pairs of one of those brands. */
  lemma {:induction false} GroupPairsMembers(bs: seq<Bottle>, keys: seq<string>, p: Pair)
    ensures p in GroupPairs(bs, keys) <==>
              p.lo < p.hi < |bs| && SameBrand(bs[p.lo], bs[p.hi]) && BrandKey(bs[p.lo]) in keys
    decreases |keys|
  {
    if |keys| > 0 {
      var m := Members(bs, keys[0]);
      GroupPairsMembers(bs, keys[1..], p);
      Combinations2Members(m, p);
      assert GroupPairs(bs, keys) == Combinations2(m) + GroupPairs(bs, keys[1..]);
      if p.lo < p.hi < |bs| && SameBrand(bs[p.lo], bs[p.hi]) && BrandKey(bs[p.lo]) == keys[0] {
        assert p.lo in m && p.hi in m;
      }
      if p.lo in m {
        var i :| 0 <= i < |m| && m[i] == p.lo;
      }
      if p.hi in m {
        var i :| 0 <= i < |m| && m[i] == p.hi;
      }
    }
  }

  /** The same-brand pass yields exactly the pairs of positions whose bottles share
      a lower-cased brand. */
  lemma SameBrandPairsMembers(bs: seq<Bottle>, p: Pair)
    ensures p in SameBrandPairs(bs) <==> p.lo < p.hi < |bs| && SameBrand(bs[p.lo], bs[p.hi])
  {
    GroupPairsMembers(bs, BrandOrder(bs), p);
  }

  /** The order of the same-brand pass: groups in the order their first bottle
      appears, and pairs within a group in combination order. */
  predicate SameBrandBefore(bs: seq<Bottle>, p: Pair, q: Pair)
  {
    p.lo < |bs| && q.lo < |bs| &&
    (FirstOfBrand(bs, p.lo) < FirstOfBrand(bs, q.lo) ||
     (FirstOfBrand(bs, p.lo) == FirstOfBrand(bs, q.lo) && LexBefore(p, q)))
  }

  function SameBrandOrder(bs: seq<Bottle>): (Pair, Pair) -> bool
  {
    (p, q) => SameBrandBefore(bs, p, q)
  }

  lemma {:induction false} GroupPairsOrdered(bs: seq<Bottle>, keys: seq<string>)
    requires forall a, b :: 0 <= a < b < |keys| ==> GroupOpensBefore(bs, keys[a], keys[b])
    ensures Chain(GroupPairs(bs, keys), SameBrandOrder(bs))
    decreases |keys|
  {
    if |keys| > 0 {
      var head := Combinations2(Members(bs, keys[0]));
      var tail := GroupPairs(bs, keys[1..]);
      GroupPairsOrdered(bs, keys[1..]);
      GroupOrdered(bs, keys[0]);
      forall i, j | 0 <= i < |head| && 0 <= j < |tail|
        ensures SameBrandOrder(bs)(head[i], tail[j])
      {
        GroupBeforeLater(bs, keys, head[i], tail[j]);
      }
      ChainAppend(head, tail, SameBrandOrder(bs));
      assert GroupPairs(bs, keys) == head + tail;
    }
  }

  /** A pair of one group: two positions of the brand, the first bottle of the brand
      at the head of the group. */
  lemma GroupPair(bs: seq<Bottle>, key: string, p: Pair)
    requires p in Combinations2(Members(bs, key))
    ensures p.lo < p.hi < |bs| && |Members(bs, key)| > 0
    ensures FirstOfBrand(bs, p.lo) == Members(bs, key)[0]
    ensures BrandKey(bs[p.lo]) == key
  {
    var m := Members(bs, key);
    Combinations2Members(m, p);
    var i :| 0 <= i < |m| && m[i] == p.lo;
    var j :| 0 <= j < |m| && m[j] == p.hi;
  }

  /** The pairs of one group follow the same-brand order. */
  lemma GroupOrdered(bs: seq<Bottle>, key: string)
    ensures Chain(Combinations2(Members(bs, key)), SameBrandOrder(bs))
  {
    var head := Combinations2(Members(bs, key));
    Combinations2Ordered(Members(bs, key));
    forall i, j | 0 <= i < j < |head|
      ensures SameBrandOrder(bs)(head[i], head[j])
    {
      GroupPair(bs, key, head[i]);
      GroupPair(bs, key, head[j]);
      assert LexBefore(head[i], head[j]);
    }
  }

  /** A pair of the first group listed precedes a pair of a later group. */
  lemma GroupBeforeLater(bs: seq<Bottle>, keys: seq<string>, p: Pair, q: Pair)
    requires |keys| > 0
    requires forall a, b :: 0 <= a < b < |keys| ==> GroupOpensBefore(bs, keys[a], keys[b])
    requires p in Combinations2(Members(bs, keys[0]))
    requires q in GroupPairs(bs, keys[1..])
    ensures SameBrandOrder(bs)(p, q)
  {
    GroupPair(bs, keys[0], p);
    GroupPairsMembers(bs, keys[1..], q);
    var key := BrandKey(bs[q.lo]);
    var b :| 0 <= b < |keys[1..]| && keys[1..][b] == key;
    assert GroupOpensBefore(bs, keys[0], keys[b + 1]);
  }

  /** The same-brand pass lists brands in the order their first bottle appears, and
      each brand's pairs in combination order. */
  lemma SameBrandPairsOrdered(bs: seq<Bottle>)
    ensures Chain(SameBrandPairs(bs), SameBrandOrder(bs))
  {
    BrandOrderFollowsFirstBottles(bs);
    GroupPairsOrdered(bs, BrandOrder(bs));
  }

  /** A pair the cross-brand pass keeps: different lower-cased brands, prices at most
      $10.00 apart. */
  predicate CrossEligible(bs: seq<Bottle>, p: Pair)
  {
    p.lo < |bs| && p.hi < |bs| && !SameBrand(bs[p.lo], bs[p.hi]) && CloseInPrice(bs[p.lo], bs[p.hi])
  }

  /** The pairs of the cross-brand pass (step 2-B), in combination order. */
  function CrossBrandPairs(bs: seq<Bottle>): (r: seq<Pair>)
    ensures forall p :: p in r <==> p.lo < p.hi && CrossEligible(bs, p)
    ensures Chain(r, LexBefore)
  {
    var all := Combinations2(Range(|bs|));
    var keep := (p: Pair) => CrossEligible(bs, p);
    var r := Filter(all, keep);
    RangeIncreasing(|bs|);
    Combinations2Ordered(Range(|bs|));
    FilterKeepsChain(all, keep, LexBefore);
    forall p
      ensures p in r <==> p.lo < p.hi && CrossEligible(bs, p)
    {
      Combinations2Members(Range(|bs|), p);
      if p.lo < p.hi && CrossEligible(bs, p) {
        assert Range(|bs|)[p.lo] == p.lo && Range(|bs|)[p.hi] == p.hi;
        var k :| 0 <= k < |all| && all[k] == p;
      }
      if p in r {
        var k :| 0 <= k < |r| && r[k] == p;
        assert keep(r[k]);
        assert p in all;
        var a :| 0 <= a < |Range(|bs|)| && Range(|bs|)[a] == p.lo;
        var b :| 0 <= b < |Range(|bs|)| && Range(|bs|)[b] == p.hi;
      }
    }
    r
  }

  /** No pair is produced by both passes: the cross-brand pass skips pairs of one brand. */
  lemma PassesAreDisjoint(bs: seq<Bottle>, p: Pair)
    ensures !(p in SameBrandPairs(bs) && p in CrossBrandPairs(bs))
  {
    SameBrandPairsMembers(bs, p);
  }
}

=== FILE: processed_log.dfy ===
/** duplicate_checker.py: the log of bundles already processed, a JSON list of names
    in a file. The file system is a map from path to the list stored there; a path
    that is not in the map is a file that does not exist. */
module ProcessedLog {
  import opened Seqs

  type Store = map<string, seq<string>>

  /** `load_processed_items`: the names listed in the file, or none when it is absent. */
  function LoadProcessed(store: Store, path: string): (r: set<string>)
    ensures path !in store ==> r == {}
    ensures path in store ==> forall x :: x in r <==> x in store[path]
  {
    if path in store then set x | x in store[path] else {}
  }

  /** `list(processed)`: the names of a set, each once, in an order the model does not
      fix (Python's set iteration order). */
  method ListOf(names: set<string>) returns (r: seq<string>)
    ensures NoDuplicates(r)
    ensures forall x :: x in r <==> x in names
  {
    r := [];
    var rest := names;
    while rest != {}
      invariant rest <= names
      invariant NoDuplicates(r)
      invariant forall x :: x in r <==> x in names - rest
      decreases |rest|
    {
      var x :| x in rest;
      assert x !in r;
      r := r + [x];
      rest := rest - {x};
    }
  }

  /** `save_processed_item`: the log at `path` rewritten as its old names plus `item`. */
  method SaveProcessed(store: Store, item: string, path: string) returns (store': Store)
    ensures path in store'
    ensures LoadProcessed(store', path) == LoadProcessed(store, path) + {item}
    ensures item in LoadProcessed(store, path) ==> LoadProcessed(store', path) == LoadProcessed(store, path)
    ensures NoDuplicates(store'[path])
    ensures forall p :: p != path ==> (p in store' <==> p in store)
    ensures forall p :: p != path && p in store ==> store'[p] == store[p]
  {
    var processed := LoadProcessed(store, path) + {item};
    var names := ListOf(processed);
    store' := store[path := names];
  }
}

=== FILE: ranked_bundler.dfy ===
/** `generate_bundles` of bundlertest.py, the later revision of the generator: the
    size filter, the two enumeration passes of the earlier revision, scoring through
    the cache, the stable sort and the top-`max_bundles` cut. */
module RankedBundler {
  import opened Seqs
  import opened Catalog
  import opened Volume
  import opened Bundler
  import opened Scoring
  import opened Ranking

  /** Each bundle with the score its key has in `cache`. */
  function WithScores(combos: seq<Bundle>, cache: map<string, real>): (r: seq<Ranked>)
    requires forall i :: 0 <= i < |combos| ==> PairKey(combos[i]) in cache
    ensures |r| == |combos|
    ensures forall i :: 0 <= i < |r| ==> r[i].bundle == combos[i] && r[i].score == cache[PairKey(combos[i])]
  {
    seq(|combos|, i requires 0 <= i < |combos| => Ranked(combos[i], cache[PairKey(combos[i])]))
  }

  /** The candidates of the later revision: the earlier revision's bundles over the
      bottles of a standard size. */
  function Candidates(bottles: seq<Bottle>, existing: set<string>): seq<Bundle>
  {
    GenerateBundles(SizeFilter(bottles), existing)
  }

  /** What steps 3 and 4 leave behind for the candidates `combos`: the cache only
      grows, by the keys of the candidates; the scorer was asked once about each key
      the cache lacked, and that key now holds the scorer's result for its first
      candidate (50.0 when the call failed); and `top` is the first `maxBundles` of the candidates sorted
      by (score, price), each with the cached score of its key. */
  ghost predicate Ranks(combos: seq<Bundle>, maxBundles: int, cache: map<string, real>, scorer: Scorer,
                        top: seq<Ranked>, cache': map<string, real>, calls: seq<string>)
  {
    (forall k :: k in cache ==> k in cache' && cache'[k] == cache[k]) &&
    (forall k :: k in cache' ==> k in cache || k in Keys(combos)) &&
    NoDuplicates(calls) &&
    (forall k :: k in calls <==> k in Keys(combos) && k !in cache) &&
    (forall b :: b in combos ==> PairKey(b) in cache') &&
    (forall i :: 0 <= i < |combos| && PairKey(combos[i]) !in cache && FirstWithKey(combos, i) ==>
       cache'[PairKey(combos[i])] == ScoreOf(scorer, combos[i])) &&
    SortedDesc(top) &&
    (forall i :: 0 <= i < |top| ==>
       top[i].bundle in combos && top[i].score == cache'[PairKey(top[i].bundle)]) &&
    top == TakePrefix(SortRanked(WithScores(combos, cache')), maxBundles)
  }

  /** Steps 3 and 4 for a non-empty list of candidates. */
  method RankCandidates(combos: seq<Bundle>, maxBundles: int, cache: map<string, real>, scorer: Scorer)
    returns (top: seq<Ranked>, cache': map<string, real>, calls: seq<string>)
    ensures Ranks(combos, maxBundles, cache, scorer, top, cache', calls)
  {
    var ranked;
    ranked, cache', calls := ScoreAll(combos, cache, scorer);
    forall b | b in combos
      ensures PairKey(b) in cache'
    {
      var j :| 0 <= j < |combos| && combos[j] == b;
    }
    assert ranked == WithScores(combos, cache');
    var sorted := SortRanked(ranked);
    SortRankedSorted(ranked);
    top := TakePrefix(sorted, maxBundles);
    TopDominates(sorted, maxBundles);
    forall i | 0 <= i < |top|
      ensures top[i].bundle in combos && top[i].score == cache'[PairKey(top[i].bundle)]
    {
      assert top[i] == sorted[i];
      assert top[i] in multiset(ranked);
      var j :| 0 <= j < |ranked| && ranked[j] == top[i];
    }
  }

  /** No bottles, no bundles. */
  lemma NoBottlesNoBundles(existing: set<string>)
    ensures GenerateBundles([], existing) == []
  {
  }

  /** Nothing to rank: nothing is scored and nothing is returned. */
  lemma RanksNothing(maxBundles: int, cache: map<string, real>, scorer: Scorer)
    ensures Ranks([], maxBundles, cache, scorer, [], cache, [])
  {
    assert Keys([]) == {};
  }

  /** Returns the top bundles with their scores, the updated score cache and the
      keys the scorer was asked about. */
  method GenerateRankedBundles(bottles: seq<Bottle>, existing: set<string>, maxBundles: int,
                               cache: map<string, real>, scorer: Scorer)
    returns (top: seq<Ranked>, cache': map<string, real>, calls: seq<string>)
    ensures SizeFilter(bottles) == [] ==> top == [] && cache' == cache && calls == []
    ensures Candidates(bottles, existing) == [] ==> top == [] && cache' == cache && calls == []
    ensures Ranks(Candidates(bottles, existing), maxBundles, cache, scorer, top, cache', calls)
  {
    var valid := SizeFilter(bottles);
    if |valid| == 0 {
      NoBottlesNoBundles(existing);
      RanksNothing(maxBundles, cache, scorer);
      return [], cache, [];
    }
    var combos := GenerateBundles(valid, existing);
    if |combos| == 0 {
      RanksNothing(maxBundles, cache, scorer);
      return [], cache, [];
    }
    top, cache', calls := RankCandidates(combos, maxBundles, cache, scorer);
  }
}

=== FILE: ranking.dfy ===
/** Step 4 of `generate_bundles` in bundlertest.py: the scored bundles sorted by
    (score, price) from highest to lowest, and the first `max_bundles` of them.

    `list.sort(key=..., reverse=True)` is stable: bundles with equal score and
    price keep their enumeration order. The sort is modelled as insertion of each
    bundle, from the last to the first, in front of the first bundle it ranks at
    least as high as. */
module Ranking {
  import opened Seqs
  import opened Scoring

  /** `a` ranks at least as high as `b`: its (score, price) tuple is not smaller. */
  predicate AtLeast(a: Ranked, b: Ranked)
  {
    a.score > b.score || (a.score == b.score && a.bundle.price >= b.bundle.price)
  }

  /** Equal (score, price) tuples: the sort leaves such bundles in their order. */
  predicate SameRank(a: Ranked, b: Ranked)
  {
    a.score == b.score && a.bundle.price == b.bundle.price
  }

  /** Highest (score, price) first. */
  predicate SortedDesc(s: seq<Ranked>)
  {
    forall i, j :: 0 <= i < j < |s| ==> AtLeast(s[i], s[j])
  }

  /** `x` placed into the sorted `s` before every bundle it ranks at least as high as. */
  function Insert(x: Ranked, s: seq<Ranked>): (r: seq<Ranked>)
    ensures multiset(r) == multiset(s) + multiset{x}
    decreases |s|
  {
    if |s| == 0 || AtLeast(x, s[0]) then [x] + s
    else
      assert s == [s[0]] + s[1..];
      [s[0]] + Insert(x, s[1..])
  }

  lemma {:induction false} InsertSorted(x: Ranked, s: seq<Ranked>)
    requires SortedDesc(s)
    ensures SortedDesc(Insert(x, s))
    decreases |s|
  {
    if |s| > 0 && !AtLeast(x, s[0]) {
      var t := Insert(x, s[1..]);
      InsertSorted(x, s[1..]);
      var r := [s[0]] + t;
      forall j | 0 < j < |r|
        ensures AtLeast(r[0], r[j])
      {
        assert r[j] in multiset(t);
        assert r[j] in multiset(s[1..]) || r[j] == x;
        if r[j] != x {
          var k :| 0 <= k < |s[1..]| && s[1..][k] == r[j];
          assert s[1..][k] == s[k + 1];
        }
      }
      assert r == Insert(x, s);
    }
  }

  /** The stable descending sort of `combos.sort(key=(ai_score, price), reverse=True)`. */
  function SortRanked(s: seq<Ranked>): (r: seq<Ranked>)
    ensures multiset(r) == multiset(s)
    decreases |s|
  {
    if |s| == 0 then []
    else
      assert s == [s[0]] + s[1..];
      Insert(s[0], SortRanked(s[1..]))
  }

  /** The sort puts the highest (score, price) first. */
  lemma {:induction false} SortRankedSorted(s: seq<Ranked>)
    ensures SortedDesc(SortRanked(s))
    decreases |s|
  {
    if |s| > 0 {
      SortRankedSorted(s[1..]);
      InsertSorted(s[0], SortRanked(s[1..]));
    }
  }

  /** The bundles ranked exactly like `x`. */
  function RankedLike(x: Ranked): Ranked -> bool
  {
    (y: Ranked) => SameRank(x, y)
  }

  lemma {:induction false} InsertStable(y: Ranked, t: seq<Ranked>, x: Ranked)
    requires SortedDesc(t)
    ensures Filter(Insert(y, t), RankedLike(x)) ==
              if SameRank(x, y) then [y] + Filter(t, RankedLike(x)) else Filter(t, RankedLike(x))
    decreases |t|
  {
    var p := RankedLike(x);
    if |t| == 0 || AtLeast(y, t[0]) {
      assert ([y] + t)[1..] == t;
    } else {
      InsertStable(y, t[1..], x);
      assert SortedDesc(t[1..]) by {
        forall i, j | 0 <= i < j < |t[1..]|
          ensures AtLeast(t[1..][i], t[1..][j])
        {
          assert t[1..][i] == t[i + 1] && t[1..][j] == t[j + 1];
        }
      }
      var r := [t[0]] + Insert(y, t[1..]);
      assert r[1..] == Insert(y, t[1..]);
      assert r == Insert(y, t);
    }
  }

  /** Stability: among the bundles ranked alike, the sort keeps the input order. */
  lemma {:induction false} SortRankedStable(s: seq<Ranked>, x: Ranked)
    ensures Filter(SortRanked(s), RankedLike(x)) == Filter(s, RankedLike(x))
    decreases |s|
  {
    if |s| > 0 {
      SortRankedStable(s[1..], x);
      SortRankedSorted(s[1..]);
      InsertStable(s[0], SortRanked(s[1..]), x);
    }
  }

  /** Python's `s[:n]`: the first `n` elements, all of them when there are fewer, and
      all but the last `-n` when `n` is negative. */
  function TakePrefix(s: seq<Ranked>, n: int): (r: seq<Ranked>)
    ensures 0 <= n <= |s| ==> |r| == n
    ensures n > |s| ==> |r| == |s|
    ensures n < 0 ==> |r| == if |s| + n >= 0 then |s| + n else 0
    ensures r == s[..|r|]
  {
    if n >= 0 then (if n <= |s| then s[..n] else s)
    else if |s| + n >= 0 then s[..|s| + n]
    else []
  }

  /** Keeping a prefix of the sorted list keeps the best: every kept bundle ranks at
      least as high as every dropped one. */
  lemma TopDominates(s: seq<Ranked>, n: int)
    requires SortedDesc(s)
    ensures var top := TakePrefix(s, n);
            SortedDesc(top) &&
            forall i, j :: 0 <= i < |top| <= j < |s| ==> AtLeast(top[i], s[j])
  {
  }

  /** Scores 80, 80, 60 at prices 10.00, 20.00, 30.00 rank as 80/20.00, 80/10.00,
      60/30.00: score first, then price, both descending. */
  lemma SortRankedExample(x: Ranked, y: Ranked, z: Ranked)
    requires x.score == 80.0 && x.bundle.price == 1000
    requires y.score == 80.0 && y.bundle.price == 2000
    requires z.score == 60.0 && z.bundle.price == 3000
    ensures SortRanked([x, y, z]) == [y, x, z]
  {
    var s := [x, y, z];
    assert s[1..] == [y, z] && s[1..][1..] == [z] && s[1..][1..][1..] == [];
    assert SortRanked([z]) == [z];
    assert Insert(y, [z]) == [y, z];
    assert [y, z][1..] == [z];
    assert Insert(x, [z]) == [x, z];
    assert Insert(x, [y, z]) == [y] + Insert(x, [z]);
  }
}

=== FILE: scoring.dfy ===
/** Pair scores: reading the scorer's reply (ai_matcher.py, the fallback at the end
    of `score_pair`) and the memoised scoring of every candidate (step 3 of
    `generate_bundles` in bundlertest.py).

    The request to the language model is not modelled. The scorer is a function of
    the two bottles that either fails (`None`: the call raised) or returns the reply
    text; the score cache is passed in and handed back instead of living in a
    module-level dictionary backed by a JSON file.

    The fallback pattern `\d+` matches wherever a digit stands, so `re.search`
    succeeds at the first digit of the reply and, being greedy, takes the whole run
    of digits that starts there; no backtracking is ever needed. */
module Scoring {
  import opened Chars
  import opened Optional
  import opened Seqs
  import opened Catalog

  /** The score stored when scoring fails. */
  const NeutralScore: real := 50.0

  /** What `re.search(r'\d+', text)` matches: the maximal digit run at the first
      digit of `text` at or after `i`. */
  function FirstNumber(t: string, i: nat): (r: Option<string>)
    requires i <= |t|
    ensures r.None? <==> forall k :: i <= k < |t| ==> !IsDigit(t[k])
    ensures r.Some? ==> |r.value| > 0 && forall k :: 0 <= k < |r.value| ==> IsDigit(r.value[k])
    decreases |t| - i
  {
    if i == |t| then None
    else if IsDigit(t[i]) then Some(t[i..i + RunLength(t, i, IsDigit)])
    else FirstNumber(t, i + 1)
  }

  /** The reply parsed as `score_pair` does: the first number in it, or 50.0 when it
      holds none (`re.search` returns None and `.group()` raises). No clamp to
      0..100 is applied. */
  function ParseReply(text: string): (score: real)
    ensures score >= 0.0
    ensures (forall k :: 0 <= k < |text| ==> !IsDigit(text[k])) ==> score == NeutralScore
  {
    match FirstNumber(text, 0)
    case None => NeutralScore
    case Some(digits) => DigitsValue(digits) as real
  }

  /** The number is the first maximal digit run: whatever precedes it holds no digit,
      and whatever follows it, digits included, is ignored. */
  lemma {:induction false} FirstNumberOf(prefix: string, digits: string, rest: string, i: nat)
    requires i <= |prefix|
    requires forall k :: 0 <= k < |prefix| ==> !IsDigit(prefix[k])
    requires |digits| > 0 && forall k :: 0 <= k < |digits| ==> IsDigit(digits[k])
    requires |rest| == 0 || !IsDigit(rest[0])
    ensures FirstNumber(prefix + digits + rest, i) == Some(digits)
    decreases |prefix| - i
  {
    var t := prefix + digits + rest;
    var p := |prefix|;
    if i < p {
      assert t[i] == prefix[i];
      FirstNumberOf(prefix, digits, rest, i + 1);
    } else {
      assert forall k :: p <= k < p + |digits| ==> t[k] == digits[k - p];
      assert p + |digits| == |t| || t[p + |digits|] == rest[0];
      RunLengthUnique(t, p, IsDigit, |digits|);
      assert t[p..p + |digits|] == digits;
    }
  }

  /** A reply whose first number is `digits` scores that number. */
  lemma ParseReplyReadsFirstNumber(prefix: string, digits: string, rest: string)
    requires forall k :: 0 <= k < |prefix| ==> !IsDigit(prefix[k])
    requires |digits| > 0 && forall k :: 0 <= k < |digits| ==> IsDigit(digits[k])
    requires |rest| == 0 || !IsDigit(rest[0])
    ensures ParseReply(prefix + digits + rest) == DigitsValue(digits) as real
  {
    FirstNumberOf(prefix, digits, rest, 0);
  }

  /** A number written out in decimal reads back as itself, however large. */
  lemma ParseReplyOfDecimal(n: nat)
    ensures ParseReply(Decimal(n)) == n as real
  {
    ParseReplyReadsFirstNumber("", Decimal(n), "");
    assert "" + Decimal(n) + "" == Decimal(n);
  }

  /** "150" scores 150 (there is no upper clamp), "85/100" scores 85 and "N/A"
      scores the neutral 50. */
  lemma ParseReplyExamples()
    ensures ParseReply("150") == 150.0
    ensures ParseReply("85/100") == 85.0
    ensures ParseReply("N/A") == 50.0
  {
    ReplyOverHundred();
    ReplyRatio();
  }

  lemma ReplyOverHundred()
    ensures ParseReply("150") == 150.0
  {
    var digits := "150";
    assert "" + digits + "" == "150";
    ParseReplyReadsFirstNumber("", digits, "");
    DigitsValue150();
  }

  lemma ReplyRatio()
    ensures ParseReply("85/100") == 85.0
  {
    var digits, rest := "85", "/100";
    assert "" + digits + rest == "85/100";
    ParseReplyReadsFirstNumber("", digits, rest);
    TwoDigitValues();
  }

  lemma DigitsValue150()
    ensures DigitsValue("150") == 150
  {
    assert "150"[..2] == "15";
    TwoDigitValues();
  }

  lemma TwoDigitValues()
    ensures DigitsValue("85") == 85 && DigitsValue("15") == 15
  {
    assert "85"[..1] == "8" && "8"[..0] == "";
    assert "15"[..1] == "1" && "1"[..0] == "";
  }

  /** The scorer: the reply text for two bottles, or `None` when the call raises. */
  type Scorer = (Bottle, Bottle) -> Option<string>

  /** The score a cache miss stores: the parsed reply, or 50.0 when the call failed. */
  function ScoreOf(scorer: Scorer, b: Bundle): (score: real)
    ensures score >= 0.0
    ensures scorer(b.first, b.second).None? ==> score == NeutralScore
    ensures scorer(b.first, b.second).Some? ==> score == ParseReply(scorer(b.first, b.second).value)
  {
    match scorer(b.first, b.second)
    case None => NeutralScore
    case Some(text) => ParseReply(text)
  }

  /** A candidate bundle with its `ai_score`. */
  datatype Ranked = Ranked(bundle: Bundle, score: real)

  /** The cache keys of a list of bundles. */
  function Keys(combos: seq<Bundle>): set<string>
  {
    set i | 0 <= i < |combos| :: PairKey(combos[i])
  }

  /** No earlier bundle of the list has the key of the bundle at `i`. */
  predicate FirstWithKey(combos: seq<Bundle>, i: nat)
    requires i < |combos|
  {
    forall j :: 0 <= j < i ==> PairKey(combos[j]) != PairKey(combos[i])
  }

  lemma KeysSnoc(combos: seq<Bundle>, i: nat)
    requires i < |combos|
    ensures Keys(combos[..i + 1]) == Keys(combos[..i]) + {PairKey(combos[i])}
  {
    var a := combos[..i + 1];
    var b := combos[..i];
    forall k | k in Keys(a)
      ensures k in Keys(b) + {PairKey(combos[i])}
    {
      var j :| 0 <= j < |a| && PairKey(a[j]) == k;
      if j < i {
        assert b[j] == a[j];
      }
    }
    forall k | k in Keys(b)
      ensures k in Keys(a)
    {
      var j :| 0 <= j < |b| && PairKey(b[j]) == k;
      assert a[j] == b[j];
    }
    assert a[i] == combos[i];
  }

  /** When every bundle before `i` has its key in `c`, so does every key of that prefix. */
  lemma PrefixKeysIn(combos: seq<Bundle>, i: nat, c: map<string, real>)
    requires i <= |combos|
    requires forall j :: 0 <= j < i ==> PairKey(combos[j]) in c
    ensures forall k :: k in Keys(combos[..i]) ==> k in c
  {
    forall k | k in Keys(combos[..i])
      ensures k in c
    {
      var j :| 0 <= j < i && PairKey(combos[..i][j]) == k;
      assert combos[..i][j] == combos[j];
    }
  }

  /** The state of the scoring loop after the first `i` bundles: their keys are
      cached, old entries are untouched, nothing else was added, a key first met
      there and missing from the old cache holds its first bundle's `score`, and
      `calls` lists exactly the keys scored so far, once each. */
  ghost predicate ScoredUpTo(combos: seq<Bundle>, i: nat, cache: map<string, real>, score: Bundle -> real,
                             cache': map<string, real>, calls: seq<string>)
    requires i <= |combos|
  {
    && (forall j :: 0 <= j < i ==> PairKey(combos[j]) in cache')
    && (forall k :: k in cache ==> k in cache' && cache'[k] == cache[k])
    && (forall k :: k in cache' ==> k in cache || k in Keys(combos[..i]))
    && (forall j :: 0 <= j < i && PairKey(combos[j]) !in cache && FirstWithKey(combos, j) ==>
          cache'[PairKey(combos[j])] == score(combos[j]))
    && NoDuplicates(calls)
    && (forall k :: k in calls <==> k in Keys(combos[..i]) && k !in cache)
  }

  /** A bundle whose key is not cached yet is scored, and its key is cached and
      recorded as a call. */
  lemma ScoreNewKey(combos: seq<Bundle>, i: nat, cache: map<string, real>, score: Bundle -> real,
                    cache': map<string, real>, calls: seq<string>)
    requires i < |combos| && ScoredUpTo(combos, i, cache, score, cache', calls)
    requires PairKey(combos[i]) !in cache'
    ensures ScoredUpTo(combos, i + 1, cache, score,
                       cache'[PairKey(combos[i]) := score(combos[i])], calls + [PairKey(combos[i])])
  {
    var key := PairKey(combos[i]);
    var c := cache'[key := score(combos[i])];
    var calls2 := calls + [key];
    KeysSnoc(combos, i);
    PrefixKeysIn(combos, i, cache');
    assert key !in calls && key !in cache;
    NoDuplicatesSnoc(calls, key);
    forall j | 0 <= j < i + 1
      ensures PairKey(combos[j]) in c
    {
    }
    forall k | k in c
      ensures k in cache || k in Keys(combos[..i + 1])
    {
    }
    forall j | 0 <= j < i + 1
      ensures PairKey(combos[j]) !in cache && FirstWithKey(combos, j) ==>
                c[PairKey(combos[j])] == score(combos[j])
    {
      if j < i {
        assert PairKey(combos[j]) in cache';
      }
    }
    forall k
      ensures k in calls2 <==> k in Keys(combos[..i + 1]) && k !in cache
    {
    }
  }

  /** A bundle whose key is already cached changes nothing. */
  lemma ScoreKnownKey(combos: seq<Bundle>, i: nat, cache: map<string, real>, score: Bundle -> real,
                      cache': map<string, real>, calls: seq<string>)
    requires i < |combos| && ScoredUpTo(combos, i, cache, score, cache', calls)
    requires PairKey(combos[i]) in cache'
    ensures ScoredUpTo(combos, i + 1, cache, score, cache', calls)
  {
    var key := PairKey(combos[i]);
    KeysSnoc(combos, i);
    forall j | 0 <= j < i + 1
      ensures PairKey(combos[j]) in cache'
    {
    }
    forall k | k in cache'
      ensures k in cache || k in Keys(combos[..i + 1])
    {
    }
    forall j | 0 <= j < i + 1
      ensures PairKey(combos[j]) !in cache && FirstWithKey(combos, j) ==>
                cache'[PairKey(combos[j])] == score(combos[j])
    {
      if j == i && key !in cache {
        // Scored earlier in this run: some earlier bundle has the same key.
        var e :| 0 <= e < |combos[..i]| && PairKey(combos[..i][e]) == key;
        assert combos[..i][e] == combos[e];
      }
    }
    forall k
      ensures k in calls <==> k in Keys(combos[..i + 1]) && k !in cache
    {
    }
  }

  /** Step 3: every bundle gets the cached score of its key; a key missing from the
      cache is scored once, by its first bundle, and the result is cached. Also
      returns the keys the scorer was asked about, in order. */
  method ScoreAll(combos: seq<Bundle>, cache: map<string, real>, scorer: Scorer)
    returns (ranked: seq<Ranked>, cache': map<string, real>, calls: seq<string>)
    ensures |ranked| == |combos|
    ensures forall i :: 0 <= i < |combos| ==>
              ranked[i].bundle == combos[i] && PairKey(combos[i]) in cache' &&
              ranked[i].score == cache'[PairKey(combos[i])]
    ensures forall k :: k in cache ==> k in cache' && cache'[k] == cache[k]
    ensures forall k :: k in cache' ==> k in cache || k in Keys(combos)
    ensures forall i :: 0 <= i < |combos| && PairKey(combos[i]) !in cache && FirstWithKey(combos, i) ==>
              cache'[PairKey(combos[i])] == ScoreOf(scorer, combos[i])
    ensures NoDuplicates(calls)
    ensures forall k :: k in calls <==> k in Keys(combos) && k !in cache
  {
    cache', calls := cache, [];
    ghost var score := (b: Bundle) => ScoreOf(scorer, b);
    var i := 0;
    assert combos[..0] == [];
    while i < |combos|
      invariant 0 <= i <= |combos|
      invariant ScoredUpTo(combos, i, cache, score, cache', calls)
    {
      var key := PairKey(combos[i]);
      if key !in cache' {
        // `score_pair` either answers or raises; a raise stores the neutral score.
        ScoreNewKey(combos, i, cache, score, cache', calls);
        cache' := cache'[key := ScoreOf(scorer, combos[i])];
        calls := calls + [key];
      } else {
        ScoreKnownKey(combos, i, cache, score, cache', calls);
      }
      i := i + 1;
    }
    // `c["ai_score"] = _SCORE_CACHE[key]`: entries never change once written, so
    // the value read during the loop is the final one.
    ranked := seq(|combos|, j requires 0 <= j < |combos| => Ranked(combos[j], cache'[PairKey(combos[j])]));
    assert combos[..i] == combos;
  }
}

=== FILE: scraper.dfy ===
/** The two pure helpers of scraper.py: `extract_price` and `clean_text`.

    The price pattern `(\d[\d,]*\.\d{2})` is searched in the text as it stands. At a
    given position the greedy reading is the only one that can match: the run of
    digits and commas can only give back digits or commas, and neither is the '.'
    the pattern needs next. Prices are read in cents; the match has exactly two
    decimals, so the float Python builds is the cents amount divided by 100. */
module Scraper {
  import opened Chars
  import opened Optional
  import opened Seqs
  import opened Money

  predicate IsDigitOrComma(c: char)
  {
    IsDigit(c) || c == ','
  }

  predicate NotComma(c: char)
  {
    c != ','
  }

  /** The greedy reading of the price pattern at `i`: the matched text. */
  function PriceAt(t: string, i: nat): (r: Option<string>)
    requires i <= |t|
    ensures r.Some? ==> |r.value| >= 4
    ensures r.Some? ==> IsDigit(r.value[0]) && r.value[|r.value| - 3] == '.'
    ensures r.Some? ==> IsDigit(r.value[|r.value| - 2]) && IsDigit(r.value[|r.value| - 1])
    ensures r.Some? ==> forall k :: 0 <= k < |r.value| - 3 ==> IsDigitOrComma(r.value[k])
  {
    if i < |t| && IsDigit(t[i]) then
      var e := i + 1 + RunLength(t, i + 1, IsDigitOrComma);
      if e + 2 < |t| && t[e] == '.' && IsDigit(t[e + 1]) && IsDigit(t[e + 2])
      then Some(t[i..e + 3])
      else None
    else None
  }

  /** The price read at `i`, in cents. */
  function PriceValueAt(t: string, i: nat): (r: Option<nat>)
    requires i <= |t|
    ensures r.None? <==> PriceAt(t, i).None?
  {
    match PriceAt(t, i)
    case None => None
    case Some(m) => Some(MatchCents(m))
  }

  function PriceReadings(t: string): (r: seq<Option<nat>>)
    ensures |r| == |t|
    ensures forall k :: 0 <= k < |t| ==> r[k] == PriceValueAt(t, k)
  {
    seq(|t|, k requires 0 <= k < |t| => PriceValueAt(t, k))
  }

  /** The value of a matched price in cents: commas dropped, whole part times 100
      plus the two decimals. */
  function MatchCents(m: string): nat
    requires |m| >= 3
  {
    DigitsValue(Filter(m[..|m| - 3], NotComma)) * 100 + DigitsValue(m[|m| - 2..])
  }

  /** `extract_price`: the first price in the text, in cents, or `None`. */
  function ExtractPrice(text: string): (r: Option<nat>)
    ensures r.None? <==> forall k :: 0 <= k < |text| ==> PriceAt(text, k).None?
  {
    var readings := PriceReadings(text);
    assert forall k :: 0 <= k < |text| ==> (readings[k].None? <==> PriceAt(text, k).None?);
    FirstSome(readings, 0)
  }

  /** Where the price found first stands at `p`, `extract_price` reads it. */
  lemma ExtractPriceAt(text: string, p: nat)
    requires p < |text|
    requires forall k :: 0 <= k < p ==> PriceAt(text, k).None?
    requires PriceAt(text, p).Some?
    ensures ExtractPrice(text) == Some(MatchCents(PriceAt(text, p).value))
  {
    FirstSomeAt(PriceReadings(text), 0, p);
  }

  /** Text holding no digit holds no price. */
  lemma NoDigitNoPrice(text: string)
    requires forall k :: 0 <= k < |text| ==> !IsDigit(text[k])
    ensures ExtractPrice(text) == None
  {
  }

  /** `f"{x:.2f}"` reads back as its amount: `extract_price` inverts the export's
      price formatting, up to the sign, which the pattern does not match. */
  lemma ExtractPriceOfFormatted(cents: int)
    ensures ExtractPrice(FormatCents(cents)) == Some(if cents < 0 then -cents else cents)
  {
    var magnitude: nat := if cents < 0 then -cents else cents;
    var u := FormatUnsigned(magnitude);
    var sign := if cents < 0 then "-" else "";
    assert FormatCents(cents) == sign + u;
    FormattedMatch(sign, u);
    ExtractPriceAt(sign + u, |sign|);
    UnsignedCents(magnitude);
  }

  /** The formatted amount, after an optional minus sign, is the first price. */
  lemma FormattedMatch(sign: string, u: string)
    requires |sign| <= 1 && forall k :: 0 <= k < |sign| ==> !IsDigit(sign[k])
    requires |u| >= 4 && IsDigit(u[0])
    requires forall i :: 0 <= i < |u| - 3 ==> IsDigit(u[i])
    requires u[|u| - 3] == '.' && IsDigit(u[|u| - 2]) && IsDigit(u[|u| - 1])
    ensures forall k :: 0 <= k < |sign| ==> PriceAt(sign + u, k).None?
    ensures PriceAt(sign + u, |sign|) == Some(u)
  {
    var t := sign + u;
    var p := |sign|;
    var e := p + |u| - 3;
    assert forall k :: 0 <= k < |u| ==> t[p + k] == u[k];
    forall k | p + 1 <= k < e
      ensures IsDigitOrComma(t[k])
    {
      assert t[k] == u[k - p];
    }
    assert t[e] == '.' && IsDigit(t[e + 1]) && IsDigit(t[e + 2]) && e + 2 < |t|;
    assert IsDigit(t[p]);
    PriceAtOf(t, p, e);
    assert t[p..e + 3] == u;
    if p == 1 {
      assert !IsDigit(t[0]);
    }
  }

  /** The price pattern read at `p`: a digit, digits or commas up to the point at
      `e`, and two digits after it. */
  lemma PriceAtOf(t: string, p: nat, e: nat)
    requires p < e && e + 2 < |t|
    requires IsDigit(t[p])
    requires forall k :: p + 1 <= k < e ==> IsDigitOrComma(t[k])
    requires t[e] == '.' && IsDigit(t[e + 1]) && IsDigit(t[e + 2])
    ensures PriceAt(t, p) == Some(t[p..e + 3])
  {
    RunLengthUnique(t, p + 1, IsDigitOrComma, e - p - 1);
  }

  /** The digits of `FormatUnsigned(n)` are worth `n` cents. */
  lemma UnsignedCents(n: nat)
    ensures MatchCents(FormatUnsigned(n)) == n
  {
    var u := FormatUnsigned(n);
    FilterKeepsAll(u[..|u| - 3], NotComma);
  }

  /** "$49.99 — In stock" is 49.99: the first price follows the currency sign. */
  lemma StockPrice()
    ensures ExtractPrice("$49.99 — In stock") == Some(4999)
  {
    var t := "$49.99 — In stock";
    assert !IsDigit(t[0]) && IsDigit(t[1]) && IsDigitOrComma(t[2]);
    assert t[3] == '.' && IsDigit(t[4]) && IsDigit(t[5]);
    assert PriceAt(t, 0).None?;
    assert t[1..6] == "49.99";
    Unsigned4999();
    UnsignedCents(4999);
    FirstPriceAt(t, 1, 3, 4999);
  }

  /** A price match at `p`, with none before it, is the price extracted. */
  lemma FirstPriceAt(t: string, p: nat, e: nat, cents: nat)
    requires p < e && e + 2 < |t|
    requires IsDigit(t[p])
    requires forall k :: p + 1 <= k < e ==> IsDigitOrComma(t[k])
    requires t[e] == '.' && IsDigit(t[e + 1]) && IsDigit(t[e + 2])
    requires forall k :: 0 <= k < p ==> PriceAt(t, k).None?
    requires MatchCents(t[p..e + 3]) == cents
    ensures ExtractPrice(t) == Some(cents)
  {
    PriceAtOf(t, p, e);
    ExtractPriceAt(t, p);
  }

  /** "1,299.99" is 1299.99: the comma is dropped. */
  lemma GroupedPrice()
    ensures ExtractPrice("1,299.99") == Some(129999)
  {
    var t := "1,299.99";
    assert IsDigit(t[0]) && forall k :: 1 <= k < 5 ==> IsDigitOrComma(t[k]);
    assert t[5] == '.' && IsDigit(t[6]) && IsDigit(t[7]);
    PriceAtOf(t, 0, 5);
    ExtractPriceAt(t, 0);
    assert t[0..8] == t;
    GroupedCents();
  }

  /** The comma of "1,299.99" is dropped before the number is read. */
  lemma GroupedCents()
    ensures MatchCents("1,299.99") == 129999
  {
    var m := "1,299.99";
    var plain := "1299.99";
    GroupedDigits();
    assert m[..5] == "1,299";
    assert plain[..4] == Filter(m[..5], NotComma);
    assert m[6..] == plain[5..];
    Unsigned129999();
    UnsignedCents(129999);
  }

  lemma GroupedDigits()
    ensures Filter("1,299", NotComma) == "1299"
  {
    var whole := "1,299";
    assert whole[1..][1..] == whole[2..];
    FilterKeepsAll(whole[2..], NotComma);
    assert [whole[0]] + whole[2..] == "1299";
  }

  /** "12.345" is 12.34: only two decimals are read. */
  lemma LongPrice()
    ensures ExtractPrice("12.345") == Some(1234)
  {
    var t := "12.345";
    assert IsDigit(t[0]) && IsDigitOrComma(t[1]);
    assert t[2] == '.' && IsDigit(t[3]) && IsDigit(t[4]);
    PriceAtOf(t, 0, 2);
    ExtractPriceAt(t, 0);
    assert t[0..5] == "12.34";
    Unsigned1234();
    UnsignedCents(1234);
  }

  lemma Unsigned4999()
    ensures FormatUnsigned(4999) == "49.99"
  {
    FormatUnsignedLayout(4999);
    assert 4999 / 100 == 49 && 4999 % 100 / 10 == 9 && 4999 % 10 == 9;
    assert DigitChar(4) == '4' && DigitChar(9) == '9';
    assert Decimal(49) == Decimal(4) + [DigitChar(9)] == "49";
  }

  lemma Unsigned129999()
    ensures FormatUnsigned(129999) == "1299.99"
  {
    FormatUnsignedLayout(129999);
    assert 129999 / 100 == 1299 && 129999 % 100 / 10 == 9 && 129999 % 10 == 9;
    Decimal1299();
    assert DigitChar(9) == '9';
  }

  lemma Decimal1299()
    ensures Decimal(1299) == "1299"
  {
    Decimal129();
    assert DigitChar(9) == '9';
  }

  lemma Decimal129()
    ensures Decimal(129) == "129"
  {
    assert DigitChar(1) == '1' && DigitChar(2) == '2' && DigitChar(9) == '9';
    assert Decimal(12) == Decimal(1) + [DigitChar(2)] == "12";
  }

  lemma Unsigned1234()
    ensures FormatUnsigned(1234) == "12.34"
  {
    FormatUnsignedLayout(1234);
    assert 1234 / 100 == 12 && 1234 % 100 / 10 == 3 && 1234 % 10 == 4;
    assert DigitChar(1) == '1' && DigitChar(2) == '2' && DigitChar(3) == '3' && DigitChar(4) == '4';
    assert Decimal(12) == Decimal(1) + [DigitChar(2)] == "12";
  }

  /** `str.strip()`: whitespace removed from both ends. */
  function Strip(s: string): (r: string)
  {
    TrimEnd(s[RunLength(s, 0, IsSpace)..])
  }

  /** Whitespace removed from the end. */
  function TrimEnd(s: string): (r: string)
    ensures |r| <= |s| && r == s[..|r|]
    ensures |r| == 0 || !IsSpace(r[|r| - 1])
    ensures forall k :: |r| <= k < |s| ==> IsSpace(s[k])
    decreases |s|
  {
    if |s| > 0 && IsSpace(s[|s| - 1]) then TrimEnd(s[..|s| - 1]) else s
  }

  /** `r` is the slice of `s` that starts at `a`, and only whitespace lies outside it. */
  predicate EdgeTrimmed(s: string, a: nat, r: string)
  {
    && a + |r| <= |s| && r == s[a..a + |r|]
    && (forall k :: 0 <= k < a ==> IsSpace(s[k]))
    && (forall k :: a + |r| <= k < |s| ==> IsSpace(s[k]))
  }

  /** Stripping cuts a slice out of the text whose ends are not whitespace and
      outside which there is nothing but whitespace. */
  lemma StripSlice(s: string)
    ensures var a, r := RunLength(s, 0, IsSpace), Strip(s);
            && EdgeTrimmed(s, a, r)
            && (|r| == 0 || (!IsSpace(r[0]) && !IsSpace(r[|r| - 1])))
  {
    TrimEndOfSuffix(s, RunLength(s, 0, IsSpace));
  }

  /** Trimming the end of the suffix of `s` from `a` leaves a slice of `s`. */
  lemma TrimEndOfSuffix(s: string, a: nat)
    requires a <= |s|
    requires a == |s| || !IsSpace(s[a])
    ensures var r := TrimEnd(s[a..]);
            && a + |r| <= |s| && r == s[a..a + |r|]
            && (|r| == 0 || (!IsSpace(r[0]) && !IsSpace(r[|r| - 1])))
            && (forall k :: a + |r| <= k < |s| ==> IsSpace(s[k]))
  {
    var t := s[a..];
    var r := TrimEnd(t);
    assert r == t[..|r|];
    forall k | a + |r| <= k < |s|
      ensures IsSpace(s[k])
    {
      assert s[k] == t[k - a];
    }
  }

  /** `clean_text`: every character outside `[\w\s-]` removed, then the result stripped. */
  function CleanText(text: string): (r: string)
    ensures forall k :: 0 <= k < |r| ==> IsKept(r[k])
    ensures |r| == 0 || (!IsSpace(r[0]) && !IsSpace(r[|r| - 1]))
  {
    var kept := Filter(text, IsKept);
    StripSlice(kept);
    Strip(kept)
  }

  /** The cleaned text is a slice of the kept characters with only whitespace around it. */
  lemma CleanTextIsSlice(text: string)
    ensures EdgeTrimmed(Filter(text, IsKept), RunLength(Filter(text, IsKept), 0, IsSpace), CleanText(text))
  {
    var kept := Filter(text, IsKept);
    assert CleanText(text) == Strip(kept);
    StripSlice(kept);
  }

  /** Only unwanted characters and edge whitespace go: every kept character other
      than whitespace survives as often as it occurs. */
  lemma CleanTextKeepsContent(text: string, c: char)
    requires IsKept(c) && !IsSpace(c)
    ensures multiset(CleanText(text))[c] == multiset(text)[c]
  {
    var kept := Filter(text, IsKept);
    var a := RunLength(kept, 0, IsSpace);
    var r := CleanText(text);
    CleanTextIsSlice(text);
    SliceCount(kept, r, a, a + |r|, c);
    FilterMultiplicity(text, IsKept, c);
  }

  /** Cutting whitespace off both ends keeps every other character. */
  lemma SliceCount(s: string, r: string, a: nat, b: nat, c: char)
    requires a <= b <= |s| && r == s[a..b] && !IsSpace(c)
    requires forall k :: 0 <= k < a ==> IsSpace(s[k])
    requires forall k :: b <= k < |s| ==> IsSpace(s[k])
    ensures multiset(r)[c] == multiset(s)[c]
  {
    assert s == s[..a] + r + s[b..];
    NoSpaceCount(s[..a], c);
    NoSpaceCount(s[b..], c);
  }

  lemma NoSpaceCount(s: string, c: char)
    requires forall k :: 0 <= k < |s| ==> IsSpace(s[k])
    requires !IsSpace(c)
    ensures multiset(s)[c] == 0
  {
  }

  /** The surviving characters keep their order. */
  lemma CleanTextIsSubsequence(text: string)
    ensures IsSubsequence(CleanText(text), text)
  {
    var kept := Filter(text, IsKept);
    var a := RunLength(kept, 0, IsSpace);
    var r := CleanText(text);
    CleanTextIsSlice(text);
    assert a + |r| <= |kept| && r == kept[a..a + |r|];
    FilterIsSubsequence(text, IsKept);
    SliceOfSubsequence(r, kept, text, a);
  }

  /** A slice of a subsequence is a subsequence. */
  lemma SliceOfSubsequence<T>(r: seq<T>, s: seq<T>, t: seq<T>, a: nat)
    requires a + |r| <= |s| && r == s[a..a + |r|]
    requires IsSubsequence(s, t)
    ensures IsSubsequence(r, t)
  {
    SliceIsSubsequence(s, a, a + |r|);
    SubsequenceTransitive(r, s, t);
  }

  lemma {:induction false} SliceIsSubsequence<T>(s: seq<T>, a: nat, b: nat)
    requires a <= b <= |s|
    ensures IsSubsequence(s[a..b], s)
    decreases |s|
  {
    if a < b {
      if a == 0 {
        SliceIsSubsequence(s[1..], 0, b - 1);
        assert s[a..b][1..] == s[1..][0..b - 1];
      } else {
        SliceIsSubsequence(s[1..], a - 1, b - 1);
        assert s[a..b] == s[1..][a - 1..b - 1];
      }
    }
  }

  lemma {:induction false} SubsequenceTransitive<T>(a: seq<T>, b: seq<T>, c: seq<T>)
    requires IsSubsequence(a, b) && IsSubsequence(b, c)
    ensures IsSubsequence(a, c)
    decreases |c|
  {
    if |a| > 0 {
      if |b| > 0 && b[0] == c[0] && IsSubsequence(b[1..], c[1..]) {
        if a[0] == b[0] && IsSubsequence(a[1..], b[1..]) {
          SubsequenceTransitive(a[1..], b[1..], c[1..]);
        } else {
          SubsequenceTransitive(a, b[1..], c[1..]);
        }
      } else {
        SubsequenceTransitive(a, b, c[1..]);
      }
    }
  }

  /** Cleaning cleaned text changes nothing. */
  lemma CleanTextIdempotent(text: string)
    ensures CleanText(CleanText(text)) == CleanText(text)
  {
    var r := CleanText(text);
    FilterKeepsAll(r, IsKept);
    RunLengthUnique(r, 0, IsSpace, 0);
    assert r[0..] == r;
  }
}

=== FILE: seqs.dfy ===
/** Generic sequence vocabulary shared by the model: order-preserving filtering,
    subsequences, pairwise ordering of a sequence and duplicate freedom. */
module Seqs {

  /** The elements of `s` that satisfy `keep`, in their original order
      (Python's `[x for x in s if keep(x)]`). */
  function Filter<T>(s: seq<T>, keep: T -> bool): (r: seq<T>)
    ensures |r| <= |s|
    ensures forall i :: 0 <= i < |r| ==> r[i] in s && keep(r[i])
    ensures forall i :: 0 <= i < |s| && keep(s[i]) ==> s[i] in r
    decreases |s|
  {
    if |s| == 0 then []
    else if keep(s[0]) then [s[0]] + Filter(s[1..], keep)
    else Filter(s[1..], keep)
  }

  /** Filtering commutes with concatenation. */
  lemma {:induction false} FilterAppend<T>(a: seq<T>, b: seq<T>, keep: T -> bool)
    ensures Filter(a + b, keep) == Filter(a, keep) + Filter(b, keep)
    decreases |a|
  {
    if |a| == 0 {
      assert a + b == b;
    } else {
      assert (a + b)[1..] == a[1..] + b;
      FilterAppend(a[1..], b, keep);
    }
  }

  /** A filter keeps every occurrence of an element that passes, and none of one
      that does not. */
  lemma {:induction false} FilterMultiplicity<T>(s: seq<T>, keep: T -> bool, x: T)
    ensures multiset(Filter(s, keep))[x] == if keep(x) then multiset(s)[x] else 0
    decreases |s|
  {
    if |s| > 0 {
      FilterMultiplicity(s[1..], keep, x);
      assert s == [s[0]] + s[1..];
    }
  }

  /** A sequence whose elements all pass is its own filter. */
  lemma {:induction false} FilterKeepsAll<T>(s: seq<T>, keep: T -> bool)
    requires forall i :: 0 <= i < |s| ==> keep(s[i])
    ensures Filter(s, keep) == s
    decreases |s|
  {
    if |s| > 0 {
      FilterKeepsAll(s[1..], keep);
    }
  }

  /** `a` can be obtained from `b` by deleting elements. */
  ghost predicate IsSubsequence<T>(a: seq<T>, b: seq<T>)
    decreases |b|
  {
    |a| == 0 ||
    (|b| > 0 && ((a[0] == b[0] && IsSubsequence(a[1..], b[1..])) || IsSubsequence(a, b[1..])))
  }

  /** Filtering only deletes elements: the survivors keep their relative order. */
  lemma {:induction false} FilterIsSubsequence<T>(s: seq<T>, keep: T -> bool)
    ensures IsSubsequence(Filter(s, keep), s)
    decreases |s|
  {
    if |s| > 0 {
      FilterIsSubsequence(s[1..], keep);
      if keep(s[0]) {
        assert Filter(s, keep)[1..] == Filter(s[1..], keep);
      }
    }
  }

  /** Every earlier element of `s` stands in relation `before` to every later one. */
  ghost predicate Chain<T>(s: seq<T>, before: (T, T) -> bool)
  {
    forall i, j :: 0 <= i < j < |s| ==> before(s[i], s[j])
  }

  /** Filtering preserves a chain. */
  lemma {:induction false} FilterKeepsChain<T>(s: seq<T>, keep: T -> bool, before: (T, T) -> bool)
    requires Chain(s, before)
    ensures Chain(Filter(s, keep), before)
    decreases |s|
  {
    if |s| > 0 {
      assert Chain(s[1..], before) by {
        forall i, j | 0 <= i < j < |s[1..]|
          ensures before(s[1..][i], s[1..][j])
        {
          assert s[1..][i] == s[i + 1] && s[1..][j] == s[j + 1];
        }
      }
      FilterKeepsChain(s[1..], keep, before);
      var rest := Filter(s[1..], keep);
      if keep(s[0]) {
        var r := [s[0]] + rest;
        forall i, j | 0 <= i < j < |r|
          ensures before(r[i], r[j])
        {
          if i == 0 {
            assert r[j] in s[1..];
            var k :| 0 <= k < |s[1..]| && s[1..][k] == r[j];
            assert s[1..][k] == s[k + 1];
          } else {
            assert r[i] == rest[i - 1] && r[j] == rest[j - 1];
          }
        }
      }
    }
  }

  /** Two chains join into one when every element of the first precedes every
      element of the second. */
  lemma ChainAppend<T>(a: seq<T>, b: seq<T>, before: (T, T) -> bool)
    requires Chain(a, before) && Chain(b, before)
    requires forall i, j :: 0 <= i < |a| && 0 <= j < |b| ==> before(a[i], b[j])
    ensures Chain(a + b, before)
  {
    var c := a + b;
    forall i, j | 0 <= i < j < |c|
      ensures before(c[i], c[j])
    {
      if j < |a| {
        assert c[i] == a[i] && c[j] == a[j];
      } else if i < |a| {
        assert c[i] == a[i] && c[j] == b[j - |a|];
      } else {
        assert c[i] == b[i - |a|] && c[j] == b[j - |a|];
      }
    }
  }

  /** No element occurs twice. */
  predicate NoDuplicates<T(==)>(s: seq<T>)
  {
    forall i, j :: 0 <= i < j < |s| ==> s[i] != s[j]
  }

  /** Appending an element not yet present keeps a list free of duplicates. */
  lemma NoDuplicatesSnoc<T>(s: seq<T>, x: T)
    requires NoDuplicates(s) && x !in s
    ensures NoDuplicates(s + [x])
  {
    var t := s + [x];
    forall i, j | 0 <= i < j < |t|
      ensures t[i] != t[j]
    {
      if j == |s| {
        assert t[i] == s[i];
      }
    }
  }
}

=== FILE: volume.dfy ===
/** Container volume read from a bottle's text, and the size filter that keeps only
    standard bottles (bundlertest.py `extract_volume` and step 1 of
    `generate_bundles`).

    The pattern `(\d+(?:\.\d+)?)\s*(ml|l)` is searched in the lower-cased text.
    Anchored at one position, each of its parts consumes greedily, and giving any
    part back can never help: fewer digits leave a digit in front of the next part,
    dropping the fraction leaves a '.', fewer spaces leave a space, and none of those
    can start a unit. So a match at a position exists exactly when the greedy
    reading succeeds, and `re.search` returns the greedy reading at the first
    position where it does. Numbers are read as exact decimals. */
module Volume {
  import opened Chars
  import opened Optional
  import opened Seqs
  import opened Catalog

  datatype Unit = Millilitres | Litres

  /** A matched quantity: its integer digits, its fraction digits (empty when the
      number has no fraction) and its unit. */
  datatype Quantity = Quantity(whole: string, fraction: string, unit: Unit)

  /** Volume assumed when the text names none: the standard 750 ml bottle. */
  const DefaultVolume: nat := 750

  /** Where the number starting at `i` ends: its digits, then a point and at least
      one digit when they follow (`\d+(?:\.\d+)?`, greedy). */
  function NumberEnd(t: string, i: nat): (e: nat)
    requires i <= |t|
    ensures i + RunLength(t, i, IsDigit) <= e <= |t|
  {
    var dot := i + RunLength(t, i, IsDigit);
    if dot < |t| && t[dot] == '.' && RunLength(t, dot + 1, IsDigit) > 0
    then dot + 1 + RunLength(t, dot + 1, IsDigit)
    else dot
  }

  /** `(ml|l)` at `u`: "ml" is tried before "l". */
  function UnitAt(t: string, u: nat): Option<Unit>
  {
    if u + 1 < |t| && t[u] == 'm' && t[u + 1] == 'l' then Some(Millilitres)
    else if u < |t| && t[u] == 'l' then Some(Litres)
    else None
  }

  /** The greedy reading of the pattern starting at `i` in lower-cased text `t`. */
  function QuantityAt(t: string, i: nat): (r: Option<Quantity>)
    requires i <= |t|
    ensures r.Some? ==> i < |t| && IsDigit(t[i])
    ensures r.Some? ==> |r.value.whole| > 0
  {
    var dot := i + RunLength(t, i, IsDigit);
    var numEnd := NumberEnd(t, i);
    var u := numEnd + RunLength(t, numEnd, IsSpace);
    if dot == i || UnitAt(t, u).None? then None
    else Some(Quantity(t[i..dot], if numEnd == dot then "" else t[dot + 1..numEnd], UnitAt(t, u).value))
  }

  /** The reading at every position of `t`. */
  function Readings(t: string): (r: seq<Option<Quantity>>)
    ensures |r| == |t|
    ensures forall k :: 0 <= k < |t| ==> r[k] == QuantityAt(t, k)
  {
    seq(|t|, k requires 0 <= k < |t| => QuantityAt(t, k))
  }

  /** `re.search` on lower-cased text: the reading at the first position that has one. */
  function FirstQuantity(t: string): Option<Quantity>
  {
    FirstSome(Readings(t), 0)
  }

  /** The first three fraction digits, padded with zeros: the millilitres in a
      fraction of a litre, truncated like `int(vol * 1000)`. */
  function Thousandths(fraction: string): nat
  {
    DigitsValue((fraction + "000")[..3])
  }

  /** `int(vol)` for millilitres, `int(vol * 1000)` for litres. */
  function QuantityMillilitres(q: Quantity): nat
  {
    match q.unit
    case Millilitres => DigitsValue(q.whole)
    case Litres => DigitsValue(q.whole) * 1000 + Thousandths(q.fraction)
  }

  /** `extract_volume`: the first quantity in the lower-cased text, in millilitres,
      or the default when the text holds none. */
  function ExtractVolume(text: string): (v: nat)
    ensures (forall i :: 0 <= i < |text| ==> !IsDigit(text[i])) ==> v == DefaultVolume
    ensures v != DefaultVolume ==> FirstQuantity(Lower(text)).Some?
  {
    var t := Lower(text);
    assert (forall i :: 0 <= i < |text| ==> !IsDigit(text[i])) ==> FirstQuantity(t).None?;
    match FirstQuantity(t)
    case None => DefaultVolume
    case Some(q) => QuantityMillilitres(q)
  }

  /** Matching is case-insensitive: the text is lower-cased before the search. */
  lemma ExtractVolumeIgnoresCase(text: string)
    ensures ExtractVolume(Lower(text)) == ExtractVolume(text)
  {
    LowerOfLower(Lower(text));
  }

  /** Where text holds, from `p`, digits up to `dot`, an optional fraction up to
      `numEnd`, spaces up to `un` and a unit at `un`, the pattern reads exactly that
      number and unit at `p`. */
  lemma ReadingAt(t: string, p: nat, dot: nat, numEnd: nat, un: nat, u: Unit)
    requires p < dot <= numEnd <= un < |t|
    requires forall k :: p <= k < dot ==> IsDigit(t[k])
    requires !IsDigit(t[dot])
    requires (numEnd == dot && t[dot] != '.') ||
             (t[dot] == '.' && dot + 1 < numEnd && !IsDigit(t[numEnd]) &&
              forall k :: dot + 1 <= k < numEnd ==> IsDigit(t[k]))
    requires forall k :: numEnd <= k < un ==> IsSpace(t[k])
    requires !IsSpace(t[un])
    requires UnitAt(t, un) == Some(u)
    ensures QuantityAt(t, p) == Some(Quantity(t[p..dot], if numEnd == dot then "" else t[dot + 1..numEnd], u))
  {
    NumberEndAt(t, p, dot, numEnd);
    RunLengthUnique(t, numEnd, IsSpace, un - numEnd);
    ReadingFromRuns(t, p, dot, numEnd, un, u);
  }

  lemma NumberEndAt(t: string, p: nat, dot: nat, numEnd: nat)
    requires p < dot <= numEnd < |t|
    requires forall k :: p <= k < dot ==> IsDigit(t[k])
    requires !IsDigit(t[dot])
    requires (numEnd == dot && t[dot] != '.') ||
             (t[dot] == '.' && dot + 1 < numEnd && !IsDigit(t[numEnd]) &&
              forall k :: dot + 1 <= k < numEnd ==> IsDigit(t[k]))
    ensures RunLength(t, p, IsDigit) == dot - p
    ensures NumberEnd(t, p) == numEnd
  {
    RunLengthUnique(t, p, IsDigit, dot - p);
    if numEnd != dot {
      RunLengthUnique(t, dot + 1, IsDigit, numEnd - dot - 1);
    }
  }

  lemma ReadingFromRuns(t: string, p: nat, dot: nat, numEnd: nat, un: nat, u: Unit)
    requires p < dot <= numEnd <= un < |t|
    requires RunLength(t, p, IsDigit) == dot - p
    requires NumberEnd(t, p) == numEnd
    requires RunLength(t, numEnd, IsSpace) == un - numEnd
    requires UnitAt(t, un) == Some(u)
    ensures QuantityAt(t, p) == Some(Quantity(t[p..dot], if numEnd == dot then "" else t[dot + 1..numEnd], u))
  {
    assert p + RunLength(t, p, IsDigit) == dot;
    assert numEnd + RunLength(t, numEnd, IsSpace) == un;
  }

  /** A search over text whose first `p` characters hold no digit finds what is read at `p`. */
  lemma SearchFindsFirstNumber(t: string, p: nat)
    requires p < |t|
    requires forall i :: 0 <= i < p ==> !IsDigit(t[i])
    requires QuantityAt(t, p).Some?
    ensures FirstQuantity(t) == QuantityAt(t, p)
  {
    FirstSomeAt(Readings(t), 0, p);
  }

  /** What `extract_volume` returns once the search has found a quantity. */
  lemma ExtractVolumeOfFound(text: string, q: Quantity)
    requires FirstQuantity(Lower(text)) == Some(q)
    ensures ExtractVolume(text) == QuantityMillilitres(q)
  {
  }

  /** A label built from a whole number and a unit reads back as that number, when
      nothing before it contains a digit. */
  lemma VolumeLabelRoundTrip(prefix: string, n: nat)
    requires forall i :: 0 <= i < |prefix| ==> !IsDigit(prefix[i])
    ensures ExtractVolume(prefix + Decimal(n) + " ml") == n
    ensures ExtractVolume(prefix + Decimal(n) + " L") == n * 1000
  {
    var digits := Decimal(n);
    LowerOfLabel(prefix, digits);
    MillilitreLabel(prefix, digits);
    LitreLabel(prefix, digits);
  }

  lemma MillilitreLabel(prefix: string, digits: string)
    requires forall i :: 0 <= i < |prefix| ==> !IsDigit(prefix[i])
    requires |digits| > 0 && forall i :: 0 <= i < |digits| ==> IsDigit(digits[i])
    requires Lower(prefix + digits + " ml") == Lower(prefix) + digits + " ml"
    ensures ExtractVolume(prefix + digits + " ml") == DigitsValue(digits)
  {
    LabelReading(Lower(prefix), digits, " ml", Millilitres);
    ExtractVolumeOfFound(prefix + digits + " ml", Quantity(digits, "", Millilitres));
  }

  lemma LitreLabel(prefix: string, digits: string)
    requires forall i :: 0 <= i < |prefix| ==> !IsDigit(prefix[i])
    requires |digits| > 0 && forall i :: 0 <= i < |digits| ==> IsDigit(digits[i])
    requires Lower(prefix + digits + " L") == Lower(prefix) + digits + " l"
    ensures ExtractVolume(prefix + digits + " L") == DigitsValue(digits) * 1000
  {
    LabelReading(Lower(prefix), digits, " l", Litres);
    ExtractVolumeOfFound(prefix + digits + " L", Quantity(digits, "", Litres));
    NoFraction();
  }

  /** An empty fraction adds no thousandths. */
  lemma NoFraction()
    ensures Thousandths("") == 0
  {
    assert ("" + "000")[..3] == "000";
    assert "000"[..2] == "00" && "00"[..1] == "0" && "0"[..0] == "";
  }

  lemma LowerOfLabel(prefix: string, digits: string)
    requires forall i :: 0 <= i < |digits| ==> IsDigit(digits[i])
    ensures Lower(prefix + digits + " ml") == Lower(prefix) + digits + " ml"
    ensures Lower(prefix + digits + " L") == Lower(prefix) + digits + " l"
  {
    LowerOfLower(digits);
    LowerAppend(prefix, digits);
    LowerAppend(prefix + digits, " ml");
    LowerAppend(prefix + digits, " L");
    assert Lower(" ml") == " ml" && Lower(" L") == " l";
  }

  /** Helper for the round trip: lower-cased label text reads as its digits. */
  lemma LabelReading(lp: string, digits: string, suffix: string, u: Unit)
    requires forall i :: 0 <= i < |lp| ==> !IsDigit(lp[i])
    requires |digits| > 0 && forall i :: 0 <= i < |digits| ==> IsDigit(digits[i])
    requires suffix == " ml" || suffix == " l"
    requires u == (if suffix == " ml" then Millilitres else Litres)
    ensures FirstQuantity(lp + digits + suffix) == Some(Quantity(digits, "", u))
  {
    var t := lp + digits + suffix;
    var p := |lp|;
    var dot := p + |digits|;
    assert forall k :: p <= k < dot ==> t[k] == digits[k - p];
    assert t[dot..] == suffix;
    assert t[dot] == ' ' && t[dot + 1] == suffix[1];
    ReadingAt(t, p, dot, dot, dot + 1, u);
    assert t[p..dot] == digits;
    assert forall k :: 0 <= k < p ==> t[k] == lp[k];
    SearchFindsFirstNumber(t, p);
  }

  /** "<whole>.<fraction> L" reads as whole litres plus the fraction's first three digits. */
  lemma FractionalLitres(whole: string, fraction: string)
    requires |whole| > 0 && |fraction| > 0
    requires forall i :: 0 <= i < |whole| ==> IsDigit(whole[i])
    requires forall i :: 0 <= i < |fraction| ==> IsDigit(fraction[i])
    ensures ExtractVolume(whole + "." + fraction + " L") == DigitsValue(whole) * 1000 + Thousandths(fraction)
  {
    var t := whole + "." + fraction + " l";
    LowerOfLitreLabel(whole, fraction);
    LitreLabelReading(whole, fraction);
    SearchFindsFirstNumber(t, 0);
    ExtractVolumeOfFound(whole + "." + fraction + " L", Quantity(whole, fraction, Litres));
  }

  lemma LowerOfLitreLabel(whole: string, fraction: string)
    requires forall i :: 0 <= i < |whole| ==> IsDigit(whole[i])
    requires forall i :: 0 <= i < |fraction| ==> IsDigit(fraction[i])
    ensures Lower(whole + "." + fraction + " L") == whole + "." + fraction + " l"
  {
    var text := whole + "." + fraction + " L";
    var t := whole + "." + fraction + " l";
    forall i | 0 <= i < |text|
      ensures ToLower(text[i]) == t[i]
    {
      if i < |text| - 1 {
        assert text[i] == t[i] && !IsUpper(text[i]);
      }
    }
  }

  lemma LitreLabelReading(whole: string, fraction: string)
    requires |whole| > 0 && |fraction| > 0
    requires forall i :: 0 <= i < |whole| ==> IsDigit(whole[i])
    requires forall i :: 0 <= i < |fraction| ==> IsDigit(fraction[i])
    ensures QuantityAt(whole + "." + fraction + " l", 0) == Some(Quantity(whole, fraction, Litres))
  {
    var t := whole + "." + fraction + " l";
    var dot := |whole|;
    var numEnd := dot + 1 + |fraction|;
    assert forall k :: 0 <= k < dot ==> t[k] == whole[k];
    assert forall k :: dot + 1 <= k < numEnd ==> t[k] == fraction[k - dot - 1];
    assert t[dot] == '.' && t[numEnd] == ' ' && t[numEnd + 1] == 'l';
    ReadingAt(t, 0, dot, numEnd, numEnd + 1, Litres);
    assert t[0..dot] == whole && t[dot + 1..numEnd] == fraction;
  }

  /** The examples of the source's docstring: "750 ml" is 750, "1.5 L" is 1500,
      "1.75 L" is 1750 and text without a quantity is 750. */
  lemma ExtractVolumeExamples()
    ensures ExtractVolume("750 ml") == 750
    ensures ExtractVolume("1.5 L") == 1500
    ensures ExtractVolume("1.75 L") == 1750
    ensures ExtractVolume("Silver Tequila") == 750
  {
    Example750();
    Example15();
    Example175();
    ExamplePlain();
  }

  lemma Example750()
    ensures ExtractVolume("750 ml") == 750
  {
    Decimal750();
    assert "" + Decimal(750) + " ml" == "750 ml";
    VolumeLabelRoundTrip("", 750);
  }

  lemma Decimal750()
    ensures Decimal(750) == "750"
  {
    assert Decimal(75) == "75" by { assert Decimal(7) == "7"; }
  }

  lemma Example15()
    ensures ExtractVolume("1.5 L") == 1500
  {
    var whole, fraction := "1", "5";
    assert whole + "." + fraction + " L" == "1.5 L";
    FractionalLitres(whole, fraction);
    LitreDigits();
  }

  lemma Example175()
    ensures ExtractVolume("1.75 L") == 1750
  {
    var whole, fraction := "1", "75";
    assert whole + "." + fraction + " L" == "1.75 L";
    FractionalLitres(whole, fraction);
    LitreDigits();
  }

  /** The digit values the litre examples need. */
  lemma LitreDigits()
    ensures DigitsValue("1") == 1
    ensures Thousandths("5") == 500 && Thousandths("75") == 750
  {
    assert "1"[..0] == "";
    assert ("5" + "000")[..3] == "500";
    assert "500"[..2] == "50" && "50"[..1] == "5" && "5"[..0] == "";
    assert ("75" + "000")[..3] == "750";
    assert "750"[..2] == "75" && "75"[..1] == "7" && "7"[..0] == "";
  }

  lemma ExamplePlain()
    ensures ExtractVolume("Silver Tequila") == 750
  {
    var t := "Silver Tequila";
    assert forall i :: 0 <= i < |t| ==> !IsDigit(t[i]);
  }

  /** Any number followed by an 'l' counts as litres, whatever word the 'l' starts:
      "2 limes" reads as 2000 ml. */
  lemma AnyLAfterNumberIsLitres()
    ensures ExtractVolume("2 limes") == 2000
  {
    var t := "2 limes";
    assert Lower(t) == t;
    TwoLimesFound();
    ExtractVolumeOfFound(t, Quantity("2", "", Litres));
    TwoLitres();
  }

  lemma TwoLimesFound()
    ensures FirstQuantity("2 limes") == Some(Quantity("2", "", Litres))
  {
    var t := "2 limes";
    ReadingAt(t, 0, 1, 1, 2, Litres);
    assert t[0..1] == "2";
    SearchFindsFirstNumber(t, 0);
  }

  lemma TwoLitres()
    ensures QuantityMillilitres(Quantity("2", "", Litres)) == 2000
  {
    assert DigitsValue("2") == 2 by { assert "2"[..0] == ""; }
    assert Thousandths("") == 0 by {
      assert ("" + "000")[..3] == "000";
      assert "000"[..2] == "00" && "00"[..1] == "0" && "0"[..0] == "";
    }
  }

  /** The sizes a bundle may contain: 750 ml, 1.5 L and 1.75 L. */
  predicate StandardSize(v: int)
  {
    v == 750 || v == 1500 || v == 1750
  }

  /** `extract_volume(name) or extract_volume(brand)`: the brand is read only when the
      name yields 0, which takes an explicit zero quantity in the name. */
  function ResolvedVolume(b: Bottle): (v: nat)
    ensures ExtractVolume(b.name) != 0 ==> v == ExtractVolume(b.name)
    ensures ExtractVolume(b.name) == 0 ==> v == ExtractVolume(b.brand)
    ensures v != ExtractVolume(b.name) ==> FirstQuantity(Lower(b.name)).Some?
  {
    var v := ExtractVolume(b.name);
    if v != 0 then v else ExtractVolume(b.brand)
  }

  /** A name labelled "n ml" after digit-free text resolves to n, unless n is 0; a
      name labelled "0 ml" falls back to the brand's volume. */
  lemma ResolvedVolumeOfLabel(prefix: string, n: nat, brand: string, price: nat)
    requires forall i :: 0 <= i < |prefix| ==> !IsDigit(prefix[i])
    ensures ResolvedVolume(Bottle(prefix + Decimal(n) + " ml", brand, price)) ==
              if n != 0 then n else ExtractVolume(brand)
  {
    VolumeLabelRoundTrip(prefix, n);
  }

  predicate HasStandardSize(b: Bottle)
  {
    StandardSize(ResolvedVolume(b))
  }

  /** Step 1 of `generate_bundles`: exactly the bottles of a standard size, in input order. */
  function SizeFilter(bottles: seq<Bottle>): (r: seq<Bottle>)
    ensures forall i :: 0 <= i < |r| ==> r[i] in bottles && StandardSize(ResolvedVolume(r[i]))
    ensures forall i :: 0 <= i < |bottles| && StandardSize(ResolvedVolume(bottles[i])) ==> bottles[i] in r
    ensures IsSubsequence(r, bottles)
    ensures forall x :: multiset(r)[x] == if HasStandardSize(x) then multiset(bottles)[x] else 0
  {
    FilterIsSubsequence(bottles, HasStandardSize);
    forall x
      ensures multiset(Filter(bottles, HasStandardSize))[x] ==
                if HasStandardSize(x) then multiset(bottles)[x] else 0
    {
      FilterMultiplicity(bottles, HasStandardSize, x);
    }
    Filter(bottles, HasStandardSize)
  }

  /** A bottle whose name carries no number at all is taken to be 750 ml and passes
      the filter. */
  lemma UnlabelledBottleIsStandard(b: Bottle)
    requires forall i :: 0 <= i < |b.name| ==> !IsDigit(b.name[i])
    ensures ResolvedVolume(b) == DefaultVolume && HasStandardSize(b)
  {
  }
}
